=== FILE: README.md ===
# Vizô — verified model of the assistant's deterministic core

Vizô is the virtual assistant of an eye clinic. It has a Flask back end (`app.py`), a terminal bot (`vizo_bot.py`) and a thin wrapper over Google Calendar, Sheets and Drive (`google_service.py`). Most of the code is glue around network and storage calls. This project models the deterministic logic inside that glue and proves properties of it in Dafny:

- **Gemini call (`deepseek_chat`)**, despite the name one `generateContent` request. The request half maps chat messages to Gemini `contents`: empty messages are dropped, `system` becomes a prefixed `user` turn, `assistant` becomes `model`, and the token cap is included only when given. The response half takes the first candidate, joins its text parts, strips them and rejects an empty result. The HTTP POST between the two halves is a function parameter.
- **Provider start-up**: `_get_env_bool`, `_read_key_from_file`, and the decision whether the provider is available.
- **`/api/chat` fallback**: the canned reply chosen by keyword priority. It is used both when no provider is available and when the call fails.
- **`_normalize_phone`**: keeps the digits of a phone number and adds Brazil's country code 55.
- **Password records**: `salt:digest` via `_hash_password` and `_verify_password`. SHA-256 is an uninterpreted function parameter.
- **The terminal bot `VizoBot`**: a state machine over input lines that fills `user_data`. The clock enters as the hour of each step.
- **The post-fetch logic of `GoogleService`**:
  - the user lookup over spreadsheet rows;
  - the morning report;
  - the Drive placeholder guard and first-match search;
  - the appointment end time, which is the start plus thirty minutes. It is computed with a model of the slice of Python's `datetime` the code uses.

Each Google API call is a parameter or an outcome value.

Files, one module each:

- `wrappers.dfy`: `Option`/`Result`.
- `text.dfy`: Python `str` behaviour.
- `pyint.dfy`: `int()`/`str()`.
- `dates.dfy`: `datetime`.
- `config.dfy`
- `gemini.dfy`
- `chat_endpoint.dfy`
- `phone.dfy`
- `password.dfy`
- `bot.dfy`
- `sheets.dfy`
- `drive.dfy`
- `calendar.dfy`

## Model

| member | source | states |
|---|---|---|
| Text.Strip | app.py:132 | `strip()` removes only surrounding whitespace: the result has none at either end, and the input is the result with runs of whitespace only before and after it |
| Text.StripPadded | app.py:138 | surrounding any text that has no whitespace at either end with whitespace and stripping gives that text back |
| Text.StripIdempotent | app.py:132 | stripping twice is stripping once |
| Text.Lower | app.py:917 | `lower()` keeps the length, leaves no ASCII capital, moves each ASCII capital 0x20 code points down to its small letter, and keeps every character that is not a capital |
| Text.LowerIdempotent | app.py:132 | lower-casing twice is lower-casing once |
| Text.LowerStripCommute | app.py:132 | `strip().lower()` equals `lower().strip()`: lower-casing never turns a character into whitespace or back |
| Text.FindIsContains | google_service.py:144 | the scanning substring test used for `in` holds exactly when some position of the text starts the substring |
| Text.Split | app.py:272 | `split(':')` yields one piece more than there are separators, and no piece contains the separator |
| Text.SplitJoin | app.py:268-272 | splitting a joined list of separator-free pieces gives the pieces back |
| Text.JoinSplit | app.py:272 | joining the pieces of a split gives the original text back |
| Text.RemoveChar | google_service.py:77 | `replace('Z', '')` leaves no 'Z', adds no character, and changes nothing when there was no 'Z' |
| Text.RemoveCharAppend | google_service.py:77 | removing a character distributes over concatenation |
| PyInt.ParseStripped | vizo_bot.py:194 | on stripped text, `int()` succeeds exactly when the text after an optional sign is digit groups joined by single underscores; a negative value needs a leading '-', a plain digit run yields its decimal value, and any accepted text yields the sign applied to the value of its digits with the underscores dropped |
| PyInt.IntStrip | vizo_bot.py:194 | the text `int()` reads is the input with only the whitespace `int()` skips removed before and after it: `str.isspace()` whitespace except the ASCII separators U+001C..U+001F |
| PyInt.ParseInt | vizo_bot.py:194 | `int()` strips the whitespace it skips and then succeeds exactly when the rest is an optional sign and digit groups joined by single underscores; it fails on blank text, a stripped digit run yields its decimal value, and any accepted text yields the sign applied to the value of its digits with the underscores dropped |
| PyInt.IntSpaceIsSpace | vizo_bot.py:194 | the whitespace `int()` skips is exactly `str.isspace()` whitespace other than U+001C..U+001F |
| PyInt.SeparatorStrips | app.py:132 | `strip()` removes an ASCII separator U+001C in front of a digit string |
| PyInt.SeparatorIsRejected | vizo_bot.py:194 | the same separator in front of the digits makes `int()` fail |
| PyInt.ParseIntSkipsBlanks | vizo_bot.py:194 | a blank before and a line break after the digits are skipped, and the digits' value is returned |
| PyInt.ParseStrippedUnderscore | vizo_bot.py:194 | an underscore between two digit runs does not count: the grouped text reads as the digits joined |
| PyInt.ParseIntUnderscore | vizo_bot.py:194 | `int()` reads two digit runs joined by one underscore, as in "1_0", as the digits joined, here 10 |
| PyInt.ParseIntGroupedSeven | vizo_bot.py:194 | `int("0_7")` is 7 |
| PyInt.ParseIntSigned | vizo_bot.py:194 | "-" followed by digits yields minus their value, and "+" followed by digits yields their value |
| PyInt.ParseIntRejectsOtherChars | vizo_bot.py:194 | any character other than a digit or '_' after the sign makes `int()` fail |
| PyInt.ParseIntToString | vizo_bot.py:194-196 | `int(str(n)) == n` for every integer n |
| Config.GetEnvBool | app.py:128-132 | an unset variable yields the default; a set one is true exactly when its stripped, lower-cased value is one of 1, true, yes, y, on |
| Config.GetEnvBoolIgnoresSpace | app.py:132 | surrounding whitespace never changes how a set variable is read |
| Config.GetEnvBoolIgnoresCase | app.py:132 | letter case never changes how a set variable is read |
| Config.GetEnvBoolSetIgnoresDefault | app.py:130-132 | once the variable is set, the default has no influence |
| Config.ReadKeyFile | app.py:134-143 | a key read from the file is exactly the file's stripped contents, and non-empty; no key exactly when the file is missing or blank |
| Config.KeyFileIsStripped | app.py:134-140 | a key file holding a key padded with whitespace yields the bare key |
| Config.ProviderFromEnvironment | app.py:146-148 | the environment key wins over the file, and the file is used when the variable is unset or empty; the enable flag defaults to "a key was found"; the provider is available exactly when a key was found and the enable flag, read with default true, is not false |
| Config.FileKeyProvider | app.py:146-148 | with the environment key unset, the provider is available exactly when the key file holds a key and the enable flag is not false |
| Gemini.ToWire | app.py:157-172 | each kept message becomes one turn with exactly one non-empty text part; the role is `model` exactly for `assistant` and `user` otherwise; the text ends with the message content |
| Gemini.BuildContents | app.py:156-172 | every message with non-empty content has its turn in `contents`, and every turn comes from such a message; roles are only `user` or `model`. A message's text is its content, or "" when missing or null (`Gemini.MessageText`), and its role is its role, or `user` when missing, null or empty (`Gemini.RoleOf`) |
| Gemini.BuildContentsAppend | app.py:156-172 | turns keep input order: the turns of a concatenation are the concatenation of the turns |
| Gemini.BuildContentsDropsEmpty | app.py:158-161 | a message with missing, null or empty content contributes nothing wherever it stands |
| Gemini.BuildContentsAllKept | app.py:156-172 | when every message is kept, turn k is the wire form of message k |
| Gemini.WireOfOneMessage | app.py:162-172 | `system` becomes `user` with the "Instrução do sistema: " prefix, `assistant` becomes `model`, any other or missing role becomes `user` |
| Gemini.WhitespaceContentIsSent | app.py:159-161 | whitespace-only content is not dropped, because the check does not strip it |
| Gemini.ParseReply | app.py:181-190 | no or empty candidates is the "empty response" error, and any other failure is the "empty content" error; the call succeeds exactly when the first candidate's joined, stripped text is non-empty, and the reply is that text. The joined text is the `text` of each object part in order, "" for a part without one, with non-object parts skipped (`Gemini.PartsOf`, `Gemini.PartText`, `Gemini.JoinTexts`) |
| Gemini.ParseReplyFirstCandidateOnly | app.py:184 | candidates after the first never change the outcome |
| Gemini.JoinTextsAppend | app.py:185-187 | the joined text of concatenated parts is the concatenation of their joined texts |
| Gemini.BlankCandidateIsEmptyReply | app.py:186-189 | a first candidate whose parts hold only whitespace is the "empty content" error, never a reply |
| Gemini.Interpret | app.py:178-190 | a transport failure, an error status (with its code) and a non-object body each give their own error, exactly in those cases; a non-error status with an object body gives what `ParseReply` makes of it; a success is non-empty and stripped |
| Gemini.Chat | app.py:151-190 | an unconfigured provider fails with `NotConfigured` before anything else, a missing HTTP library fails next, and a success is a non-empty stripped reply |
| Gemini.ChatUnconfiguredSendsNothing | app.py:152-153 | without a configured provider the outcome does not depend on the transport at all |
| Gemini.ChatSendsOneRequest | app.py:173-178 | the one request, which `Gemini.BuildRequest` builds, carries the key, the mapped turns, a token cap exactly when one was given and equal to it, and a 30-second timeout; only the answer to that request matters |
| Gemini.ChatGoodReply | app.py:173-190 | a configured call answered with a non-error status and an object body returns exactly the parsed reply of that body |
| Gemini.ChatFailedRequest | app.py:178-179 | a configured call raises the transport failure, or the error status of the answer, when the one request fails that way |
| Gemini.ChatSuccessIsParsedReply | app.py:178-190 | a successful call had a transport answer with a non-error status and a JSON body, and its result is the parsed first candidate |
| Gemini.ParseReplyExample | app.py:180-190 | a body whose only part has the text "Olá" yields "Olá" |
| ChatEndpoint.FallbackReply | app.py:916-925 | the reply is one of the four fixed texts, with priority scheduling keywords, then exam keywords, then price keywords, then the greeting, each case stated as an if-and-only-if |
| ChatEndpoint.FallbackIgnoresCase | app.py:917 | the canned reply does not depend on letter case |
| ChatEndpoint.FallbackSchedulingFirst | app.py:919-922 | a message mentioning both a consultation and an exam gets the scheduling reply |
| ChatEndpoint.AiChat | app.py:916-945 | a fallback answer carries the canned reply; without a provider the answer is always the fallback; with a provider, a successful call's reply is the answer and a failed call gives the fallback; a non-fallback answer is non-empty |
| ChatEndpoint.FallbackPathsAgree | app.py:916-945 | the no-provider path and the failed-call path give the same answer, the canned reply with the fallback flag |
| ChatEndpoint.SystemTurn | app.py:927 | a non-empty system prompt becomes one `user` turn carrying the prefixed prompt |
| ChatEndpoint.UserTurn | app.py:930 | the user's message becomes one `user` turn with its text, or no turn when it is empty |
| ChatEndpoint.ChatTurns | app.py:927-930 | the messages `ai_chat` builds (`ChatEndpoint.ChatMessages`: system prompt, history as given, user message) map to the system turn, then the history's turns, then the user's turn |
| ChatEndpoint.AiChatRequestShape | app.py:927-932 | the chat request has no token cap; its turns are the prefixed system prompt as a `user` turn, the history's turns in order, and the user's message as the last turn when it is non-empty |
| Phone.Digits | app.py:810 | the digit string has only digits and is empty exactly when the input has no digit |
| Phone.DigitsOfChar | app.py:810 | one character keeps itself exactly when it is a digit |
| Phone.DigitsAppend | app.py:810 | the digits of a concatenation are the digits of each part, in order |
| Phone.DigitsOfDigits | app.py:810 | a digits-only string is its own digit string |
| Phone.NormalizePhone | app.py:809-819 | "" exactly when the input has no digits; otherwise digits only, starting with 55, ending with the input's digits, of their length or two more |
| Phone.NormalizePhoneRule | app.py:811-819 | the branches collapse to one rule: keep a number that starts with 55, prefix 55 to any other non-empty one |
| Phone.NormalizeNationalNumber | app.py:815-816 | a 10- or 11-digit number without 55 gets 55 in front |
| Phone.NormalizeKeepsCountryCode | app.py:813-819 | digits already starting with 55 are returned unchanged |
| Phone.NormalizePhoneIdempotent | app.py:809-819 | normalising twice is normalising once |
| Password.HashPassword | app.py:264-268 | the record is salt, one colon, digest: its colon count is the salt's plus the digest's plus one |
| Password.VerifyPassword | app.py:270-275 | a record without exactly one colon never verifies |
| Password.HashThenVerify | app.py:264-275 | a record made from a colon-free salt and digest verifies against the same password |
| Password.VerifyMeansHashed | app.py:264-275 | a record that verifies is exactly what hashing would produce from its own salt |
| Password.ExtraColonRejected | app.py:272-275 | a record with two colons is rejected whatever the password |
| Bot.Init | vizo_bot.py:36-37 | a fresh bot is in `MENU` with empty `user_data` |
| Bot.Start | vizo_bot.py:79-84 | `start` moves to `START_DATA` and keeps the data |
| Bot.HandoverTrace | vizo_bot.py:233-259 | the hand-over always ends in `MENU` and passes through `WAITING_HUMAN` exactly from 7h00 until before 18h00 |
| Bot.DoctorChoice | vizo_bot.py:192-196 | a doctor is chosen exactly when `int(input)` is 1..7 or 8; k picks the k-th doctor and 8 "Qualquer especialista" |
| Bot.Step | vizo_bot.py:112-231 | "0" ends the session exactly outside `WAITING_HUMAN` and changes nothing; a step that ends in `WAITING_HUMAN` changed nothing; a doctor is booked only from the doctor question; no key of `user_data` is ever lost |
| Bot.StepWritesOneKey | vizo_bot.py:128-189 | a step writes only the key of the state it starts in, and keeps every other entry |
| Bot.WaitingHumanStep | vizo_bot.py:113-120 | while waiting, "cancelar" in any case returns to the menu and any other input changes nothing |
| Bot.MenuStep | vizo_bot.py:135-174 | from the menu "1", "2" and "3" open the booking, exam and doctor pages; every other input ends back in the menu; the data is untouched |
| Bot.BookingSteps | vizo_bot.py:128-189 | the start and booking steps store `info_inicial`, `nome` and `whatsapp` and move to the next state |
| Bot.DoctorStep | vizo_bot.py:192-214 | the doctor question always returns to the menu, booking the chosen doctor if any |
| Bot.ChoiceOfNumber | vizo_bot.py:194-196 | text that `int()` reads as k in 1..8 books doctor k, or any specialist for 8 |
| Bot.SeparatorBooksNoDoctor | vizo_bot.py:192-196 | a separator U+001C before a number, as in "\x1c7", books no doctor, because `int()` rejects it |
| Bot.GroupedDigitsBookSameDoctor | vizo_bot.py:192-196 | digits split by one underscore book the same doctor as the digits joined |
| Bot.GroupedSevenBooksSeventhDoctor | vizo_bot.py:192-196 | the input "0_7" books the seventh doctor |
| Bot.DoctorChoiceDigits | vizo_bot.py:194-196 | the inputs "1".."7" and "8" book the matching doctor |
| Bot.PageSteps | vizo_bot.py:216-229 | the exam page always returns to the menu; the doctor page starts a booking on "1" and otherwise returns to the menu |
| Bot.Run | vizo_bot.py:308-311 | the terminal loop feeds input lines to the bot until one ends the session, and no key of `user_data` is lost along the way |
| Bot.NeverWaitsForHuman | vizo_bot.py:233-259 | a session that is not waiting for a human, run over any input lines by `Bot.Run`, never comes to wait for one, because the hand-over resets to the menu within the same step |
| Bot.HandoverEndsInMenu | vizo_bot.py:233-259 | option 4 leaves the bot in the menu at every hour |
| Bot.SuiteFlows | test_suite.py:36-62 | the flows the unit tests assert: initial state, `start`, menu options 1 and 2, and the name and WhatsApp steps |
| Sheets.CheckUserExists | google_service.py:130-149 | true exactly when there are credentials, the fetch succeeded and some cell of some row contains the identifier ignoring case |
| Sheets.EmptyIdentifierMatchesAnyCell | google_service.py:143-145 | an empty identifier matches any row that has a cell |
| Sheets.TodayRows | google_service.py:119-120 | a row is selected exactly when it is a fetched row whose first cell starts with the date |
| Sheets.TodayRowsAppend | google_service.py:120 | selection keeps sheet order |
| Sheets.NothingSelected | google_service.py:120 | with no row of the day nothing is selected |
| Sheets.MorningReport | google_service.py:105-128 | no credentials, an HTTP error and no rows give their fixed texts; the report fails with `IndexError` exactly when a row is empty or a row of the day has fewer than four cells; otherwise every selected row has four cells and the report is exactly the dated header followed by one line per row of the day, in sheet order. The readable sheets are `Sheets.WellShaped`; a row's line is "📍 B - D (C)" (`Sheets.Line`), and the lines in order make `Sheets.Body` |
| Sheets.BodyAppend | google_service.py:123-124 | the lines of two runs of rows are the lines of the first followed by those of the second |
| Sheets.WellShapedAppend | google_service.py:118-124 | two sheets a report can read make one the report can read |
| Sheets.DayLinesAppend | google_service.py:118-126 | the report of a sheet split in two is one header followed by the day's lines of each part in turn |
| Sheets.BodyHasEveryLine | google_service.py:123-124 | every selected row contributes its line to the report body |
| Sheets.ReportListsEveryTodayRow | google_service.py:118-126 | every appointment of the day appears in the report as "📍 name - column D (column C)" |
| Sheets.ReportWithoutTodayRows | google_service.py:118-126 | with rows but none of the day, the report is the header alone |
| Drive.KnowledgeQuery | google_service.py:161 | the listing query is the quoted folder id and the parent condition followed by the PDF and not-trashed filter, and nothing else |
| Drive.SearchQuery | google_service.py:174 | the search query starts with the folder condition, the name condition follows it directly, and it ends with the PDF and not-trashed filter, with nothing else in it |
| Drive.SearchQueryIsListingPlusName | google_service.py:161-174 | the search query is the listing query with the name condition put in right after the folder condition |
| Drive.ListKnowledgeFiles | google_service.py:152-167 | no credentials or a placeholder folder id give no files; any files returned are exactly what Drive answered to the listing query |
| Drive.SearchFileByName | google_service.py:169-181 | a file is returned exactly when there are credentials and Drive listed at least one file, and it is the first listed |
| Drive.DefaultFolderListsNothing | google_service.py:158-159 | the shipped default folder id is a placeholder, so its listing is empty whatever Drive holds |
| Drive.ListingIsDriveAnswer | google_service.py:161-167 | for a real folder with credentials the listing is Drive's answer, or empty after an error |
| Drive.SearchIgnoresPlaceholder | google_service.py:169-178 | the search has no placeholder guard and asks Drive even for the default folder |
| Drive.KnowledgeQueryInjective | google_service.py:161 | different folder ids give different listing queries |
| Dates.FormatDate | google_service.py:119 | `strftime("%Y-%m-%d")` writes ten characters with dashes at positions 4 and 7, and its three digit fields read back as the year, the month and the day |
| Dates.Pad | google_service.py:78 | zero-padding writes exactly `width` digits denoting the number |
| Dates.FormatDateTime | google_service.py:78 | `isoformat()` writes 19 or 26 characters and never a 'Z' |
| Dates.ParseDateTime | google_service.py:77 | `fromisoformat` only ever yields a valid date-time |
| Dates.ParseFormatDateTime | google_service.py:77-78 | `fromisoformat` reads back what `isoformat` wrote |
| Dates.NextDay | google_service.py:77-78 | the next day is one ordinal later and a valid date, and fails exactly after 9999-12-31 |
| Dates.AddThirtyMinutes | google_service.py:77-78 | adding `timedelta(minutes=30)` advances the instant by exactly 1 800 000 000 µs and fails with overflow exactly from 9999-12-31 23:30 on |
| Calendar.EndTime | google_service.py:77-78 | the end fails as invalid exactly when the 'Z'-less start (`Calendar.StartInstant`) does not parse; it fails with overflow exactly when the start parses and adding thirty minutes passes year 9999; a computed end ends in 'Z' and reads back as an instant exactly thirty minutes after the start |
| Calendar.EndTextReads | google_service.py:77-78 | an end text with its 'Z' removed parses back to the instant it was written from |
| Calendar.BuildEvent | google_service.py:73-82 | both ends carry the America/Fortaleza zone; attendees are present exactly for a non-empty doctor e-mail, and then hold only it |
| Calendar.CreateAppointment | google_service.py:66-89 | no credentials gives `False`; the end-time exception escapes exactly when the end cannot be computed; otherwise the built event is inserted once: its link is returned on success and an `HttpError` gives `None`; an escaping exception carries the end-time error |
| Calendar.EndTimeIsThirtyMinutesLater | google_service.py:72-78 | for any start `isoformat` writes, followed by 'Z', the end is the `isoformat` of the start plus thirty minutes, re-suffixed with 'Z' |
| Calendar.BadStartInsertsNothing | google_service.py:77-84 | a start whose end cannot be computed never reaches the calendar |

## Left out

- Flask routing, JSON request and response handling, static files, SQLite, the settings and campaign JSON files, SMTP e-mail and token files are storage and transport plumbing. They are not modelled.
- The Gemini POST and the Google API calls (`build(...).execute()`) are foreign network calls. They are function parameters (`Transport`, `list`, `insert`) or outcome values (`Fetched`).
- The connection and timeout behaviour of the POST is not modelled. It is the `Transport` outcome `None`.
- OAuth authentication in `GoogleService.authenticate` is reduced to a `hasCreds` flag. It reads files and runs a browser flow.
- `add_lead_to_sheets` is not modelled: it is a single API call with no logic of its own.
- SHA-256 and `secrets.token_hex` are an uninterpreted function and a salt parameter. `_generate_provisional_password` is random and is left out.
- Text-to-speech (ElevenLabs, edge-tts, the PowerShell voice service), the bot's printing and its metrics logger are output side effects. They are left out.
- The OpenAI call in the bot's free-text menu branch (vizo_bot.py:155-170) is external and non-deterministic. Only its state effect (back to `MENU`) is modelled.
- The bot's Google Calendar sync after a doctor choice (vizo_bot.py:200-206) is left out of the step. That sync is the `create_appointment` call, which `Calendar.CreateAppointment` models on its own.
- The `time.sleep` in the hand-over is left out.
- `ai_chat`'s system-prompt assembly (app.py:886-914) reads the settings file and the Drive listing. The assembled prompt is a parameter of `ChatEndpoint.AiChat`.
- `send_whatsapp_text` beyond `_normalize_phone` (URL, token suffix, POST) is network I/O.
- The multi-provider relay with failover and cooldown is not modelled, because it is not in the code.
- `test_api_chat_mock` patches `app.deepseek_client`, which `deepseek_chat` never reads, so it does not describe the code's behaviour.
- Text.LowerChar: `str.lower()` is modelled for ASCII and Latin-1 capitals only. Other scripts' capitals and the special mappings such as U+0130 are left as they are.
- PyInt.ParseInt: only ASCII digits are accepted. Python's `int()` also accepts other Unicode decimal digits, which are treated as invalid here.
- PyInt.ParseInt: the digit-count limit of `int()` is not modelled. Since CPython 3.11, parsing more than 4300 digits raises `ValueError`.
- Phone.Digits: `\D` is modelled over ASCII digits. Python's `\d` also matches other Unicode decimal digits.
- Gemini.MessageText: a non-string `content` (a number or a list) goes through `str()` in the source. The model takes content as a string or absent.
- Gemini.RoleOf: the same applies to a non-string `role`.
- Gemini.PartText: a part whose `"text"` is `null` or a number makes `"".join` raise `TypeError` in the source. The model takes an object part's text as a string or absent, so that error path is not modelled.
- Gemini.PartsOf: a first candidate that is not a JSON object, or whose `content` is not one, makes `.get` raise `AttributeError` in the source. That path is not modelled.
- Gemini.PartsOf: a `candidates` value that is truthy but not a list is not modelled: `candidates[0]` at app.py:184 raises `KeyError` for an object, `AttributeError` for a string (its first character has no `.get`) and `TypeError` for a number. The model takes `candidates` as a list or absent.
- Gemini.PartsOf: a `parts` value that is a non-zero number or `true` makes the comprehension at app.py:186 raise `TypeError`, because it is not iterable. The model takes `parts` as a list or absent. A string `parts` is iterated character by character, none of them an object, so it ends in the "empty content" error, which the model gives for an empty list.
- ChatEndpoint.AiChat: a `history` item that is not a JSON object makes `m.get` raise `AttributeError` at app.py:158. `ai_chat` catches it and answers with the canned fallback (app.py:935-945). The history is a sequence of `Message` values, which cannot express such an item, so this path is not modelled.
- Dates.ParseDateTime: only the two shapes `isoformat()` writes are accepted: `YYYY-MM-DDTHH:MM:SS`, optionally followed by `.ffffff`. Since Python 3.7, `fromisoformat` also accepts a date alone, any single character as the separator, hours alone or `HH:MM`, three fraction digits, and a UTC offset; Python 3.11 accepts still more ISO 8601 forms. The model reports all of these as `InvalidIsoFormat`, so for them it raises where the source would compute an end time.
- Sheets.MorningReport: the date is taken as a valid year, month and day and formatted as `YYYY-MM-DD`. For years below 1000, platform `strftime("%Y")` may not pad, which is not modelled.
- Sheets.MorningReport: cells are strings. The Sheets API returns row values as strings, and `str(cell)` is not modelled.
- Sheets.CheckUserExists: the same applies to cells.

## Notes

- `initiate_handover` sets `WAITING_HUMAN` and then `MENU` within the same call. `Bot.NeverWaitsForHuman` shows that a session driven by `process_input` never observes the waiting state, so the "cancelar" branch is reachable only from a bot placed in that state directly.
- `search_file_by_name` has no placeholder guard, unlike `list_knowledge_files` (`Drive.SearchIgnoresPlaceholder`).
- An exception other than `HttpError` escapes `get_morning_report` and `create_appointment`. The model reports it as an outcome value (`IndexError`, `Raised`): a row too short for the report, or a start time `fromisoformat` rejects.

=== FILE: bot.dfy ===
/**
 * The terminal bot `VizoBot`: a state machine over the user's input lines
 * that records booking fields in `user_data`. Printing, speech, metrics, the
 * campaign banner, the free-text AI reply and the calendar call are side
 * effects and are not modelled; the clock enters as the hour of the step.
 */
module Bot {
  import opened Wrappers
  import opened Text
  import opened PyInt

  datatype State =
    | Menu
    | StartData
    | WaitingHuman
    | AgendamentoNome
    | AgendamentoZap
    | AgendamentoMedico
    | Exames
    | Especialistas

  /** `user_data`. */
  type UserData = map<string, string>

  /** The bot's observable state: `state` and `user_data`. */
  datatype Bot = Bot(state: State, userData: UserData)

  /**
   * One `process_input` call: the new bot, the returned flag (false ends the
   * session) and the doctor of a booking confirmed in this step, if any.
   */
  datatype StepResult = StepResult(bot: Bot, keepGoing: bool, doctor: Option<string>)

  const Doctors: seq<string> := [
    "Dr. Lucas Rezende", "Dra. Ana Catarina", "Dr. Tarcísio Guerra",
    "Dr. Augusto Almeida", "Dra. Nabila Demachki", "Dra. Roseni Lopes",
    "Dra. Michele Gonçalves"
  ]

  /** The extra choice 8 of the doctor list. */
  const AnyDoctor := "Qualquer especialista"

  /** Human attendants work from 7h00 until 18h00. */
  const OpeningHour := 7
  const ClosingHour := 18

  const QuitInput := "0"
  const CancelWord := "cancelar"

  /** The key of `user_data` a state writes the input to, if it writes one. */
  function DataKey(s: State): Option<string> {
    match s
    case StartData => Some("info_inicial")
    case AgendamentoNome => Some("nome")
    case AgendamentoZap => Some("whatsapp")
    case _ => None
  }

  /** `VizoBot()`: the constructor's state and data. */
  function Init(): (b: Bot)
    ensures b.state == Menu && b.userData == map[]
  {
    Bot(Menu, map[])
  }

  /** `start`: greet and wait for the opening data. */
  function Start(b: Bot): (r: Bot)
    ensures r.state == StartData && r.userData == b.userData
  {
    b.(state := StartData)
  }

  /**
   * The states `initiate_handover` passes through at `hour`: out of hours it
   * shows the menu at once; in hours it waits for a human, then shows the menu.
   */
  function HandoverTrace(hour: int): (trace: seq<State>)
    ensures |trace| >= 1 && trace[|trace| - 1] == Menu
    ensures WaitingHuman in trace <==> OpeningHour <= hour < ClosingHour
  {
    if hour < OpeningHour || hour >= ClosingHour then [Menu] else [WaitingHuman, Menu]
  }

  /**
   * The doctor chosen by `input` in the doctor-choice step: `int(input)` in
   * 1..7 picks that doctor, 8 picks "any doctor", anything else picks none.
   */
  function DoctorChoice(input: string): (r: Option<string>)
    ensures r.Some? <==> ParseInt(input).Some? && (1 <= ParseInt(input).value <= 7 || ParseInt(input).value == 8)
    ensures r.Some? && ParseInt(input).value != 8 ==> r.value == Doctors[ParseInt(input).value - 1]
    ensures r.Some? ==> r.value in Doctors || r.value == AnyDoctor
  {
    match ParseInt(input)
    case None => None
    case Some(choice) =>
      if 1 <= choice <= |Doctors| || choice == 8 then
        Some(if choice != 8 then Doctors[choice - 1] else AnyDoctor)
      else
        None
  }

  /** `process_input(input)` with the clock reading `hour`. */
  function Step(b: Bot, input: string, hour: int): (r: StepResult)
    ensures !r.keepGoing <==> b.state != WaitingHuman && input == QuitInput
    ensures !r.keepGoing ==> r.bot == b
    ensures r.bot.state == WaitingHuman ==> r.bot == b
    ensures r.doctor.Some? ==> b.state == AgendamentoMedico && r.doctor == DoctorChoice(input)
    ensures forall k :: k in b.userData ==> k in r.bot.userData
  {
    var data := b.userData;
    if b.state == WaitingHuman then
      if Lower(input) == CancelWord then StepResult(Bot(Menu, data), true, None)
      else StepResult(b, true, None)
    else if input == QuitInput then
      StepResult(b, false, None)
    else
      match b.state
      case StartData => StepResult(Bot(Menu, data["info_inicial" := input]), true, None)
      case Menu =>
        var next :=
          if input == "1" then AgendamentoNome
          else if input == "2" then Exames
          else if input == "3" then Especialistas
          else if input == "4" then HandoverTrace(hour)[|HandoverTrace(hour)| - 1]
          else Menu;
        StepResult(Bot(next, data), true, None)
      case AgendamentoNome => StepResult(Bot(AgendamentoZap, data["nome" := input]), true, None)
      case AgendamentoZap => StepResult(Bot(AgendamentoMedico, data["whatsapp" := input]), true, None)
      case AgendamentoMedico => StepResult(Bot(Menu, data), true, DoctorChoice(input))
      case Exames => StepResult(Bot(Menu, data), true, None)
      case Especialistas =>
        StepResult(Bot(if input == "1" then AgendamentoNome else Menu, data), true, None)
  }

  /** Each step writes at most one key, the one of the state it starts in, and keeps the rest. */
  lemma StepWritesOneKey(b: Bot, input: string, hour: int)
    ensures var r := Step(b, input, hour);
            if r.keepGoing && b.state != WaitingHuman && DataKey(b.state).Some?
            then r.bot.userData == b.userData[DataKey(b.state).value := input]
            else r.bot.userData == b.userData
  {
  }

  /** While waiting for a human, only "cancelar" in any case leads back to the menu. */
  lemma WaitingHumanStep(data: UserData, input: string, hour: int)
    ensures var r := Step(Bot(WaitingHuman, data), input, hour);
            && r.keepGoing
            && (Lower(input) == CancelWord ==> r.bot == Bot(Menu, data))
            && (Lower(input) != CancelWord ==> r.bot == Bot(WaitingHuman, data))
  {
  }

  /** The menu options. */
  lemma MenuStep(data: UserData, input: string, hour: int)
    requires input != QuitInput
    ensures var r := Step(Bot(Menu, data), input, hour);
            && r.bot.userData == data && r.doctor.None?
            && (input == "1" ==> r.bot.state == AgendamentoNome)
            && (input == "2" ==> r.bot.state == Exames)
            && (input == "3" ==> r.bot.state == Especialistas)
            && (input !in {"1", "2", "3"} ==> r.bot.state == Menu)
  {
  }

  /** The booking steps: each stores its one field and moves on. */
  lemma BookingSteps(data: UserData, input: string, hour: int)
    requires input != QuitInput
    ensures Step(Bot(StartData, data), input, hour).bot == Bot(Menu, data["info_inicial" := input])
    ensures Step(Bot(AgendamentoNome, data), input, hour).bot == Bot(AgendamentoZap, data["nome" := input])
    ensures Step(Bot(AgendamentoZap, data), input, hour).bot == Bot(AgendamentoMedico, data["whatsapp" := input])
  {
  }

  /** Every answer to the doctor question leads back to the menu; valid ones book a doctor. */
  lemma DoctorStep(data: UserData, input: string, hour: int)
    requires input != QuitInput
    ensures var r := Step(Bot(AgendamentoMedico, data), input, hour);
            && r.bot == Bot(Menu, data)
            && r.doctor == DoctorChoice(input)
  {
  }

  /** "8" books any doctor and "k" for k in 1..7 books the k-th doctor. */
  lemma DoctorChoiceDigits(k: nat)
    requires 1 <= k <= 8
    ensures DoctorChoice(IntToString(k)) == Some(if k == 8 then AnyDoctor else Doctors[k - 1])
  {
    ParseIntToString(k);
    ChoiceOfNumber(IntToString(k), k);
  }

  /** A separator U+001C before a number such as "7" is not skipped by `int()`, so no doctor is booked. */
  lemma SeparatorBooksNoDoctor(d: string)
    requires d != [] && AllDigits(d)
    ensures DoctorChoice("\U{1C}" + d) == None
  {
    SeparatorIsRejected(d);
  }

  /** Digits split by an underscore book the same doctor as the digits joined. */
  lemma GroupedDigitsBookSameDoctor(a: string, b: string)
    requires a != [] && AllDigits(a) && b != [] && AllDigits(b)
    ensures DoctorChoice(a + "_" + b) == DoctorChoice(a + b)
  {
    ParseIntUnderscore(a, b);
  }

  /** "0_7" is read as 7 and books the seventh doctor. */
  lemma GroupedSevenBooksSeventhDoctor()
    ensures DoctorChoice("0_7") == Some(Doctors[6])
  {
    ParseIntGroupedSeven();
    ChoiceOfNumber("0_7", 7);
  }

  /** Text `int()` reads as k in 1..8 books the doctor numbered k. */
  lemma ChoiceOfNumber(input: string, k: int)
    requires 1 <= k <= 8 && ParseInt(input) == Some(k)
    ensures DoctorChoice(input) == Some(if k == 8 then AnyDoctor else Doctors[k - 1])
  {
  }

  /** The exam and doctor pages: "1" on the doctor page starts a booking, all else returns to the menu. */
  lemma PageSteps(data: UserData, input: string, hour: int)
    requires input != QuitInput
    ensures Step(Bot(Exames, data), input, hour).bot == Bot(Menu, data)
    ensures Step(Bot(Especialistas, data), input, hour).bot
         == Bot(if input == "1" then AgendamentoNome else Menu, data)
  {
  }

  /** Runs the bot over input lines, each with the hour it arrives at, until one ends the session. */
  function Run(b: Bot, inputs: seq<(string, int)>): (r: Bot)
    ensures forall k :: k in b.userData ==> k in r.userData
    decreases |inputs|
  {
    if inputs == [] then b
    else
      var r := Step(b, inputs[0].0, inputs[0].1);
      if r.keepGoing then Run(r.bot, inputs[1..]) else r.bot
  }

  /**
   * A bot that is not waiting for a human never comes to wait for one: the
   * hand-over resets to the menu within the same step, so the "cancelar"
   * branch is never reached from a started session.
   */
  lemma {:induction false} NeverWaitsForHuman(b: Bot, inputs: seq<(string, int)>)
    requires b.state != WaitingHuman
    ensures Run(b, inputs).state != WaitingHuman
    decreases |inputs|
  {
    if inputs != [] {
      var r := Step(b, inputs[0].0, inputs[0].1);
      if r.keepGoing {
        NeverWaitsForHuman(r.bot, inputs[1..]);
      }
    }
  }

  /** The hand-over in and out of office hours. */
  lemma HandoverEndsInMenu(data: UserData, hour: int)
    ensures Step(Bot(Menu, data), "4", hour).bot == Bot(Menu, data)
    ensures HandoverTrace(hour) == (if hour < 7 || hour >= 18 then [Menu] else [WaitingHuman, Menu])
  {
  }

  /** The flows the repository's unit tests assert: initial state, `start`, menu choices and the booking steps. */
  lemma SuiteFlows()
    ensures Init() == Bot(Menu, map[])
    ensures Start(Init()).state == StartData
    ensures Step(Bot(Menu, map[]), "1", 12).bot.state == AgendamentoNome
    ensures Step(Bot(Menu, map[]), "2", 12).bot.state == Exames
    ensures var afterName := Step(Bot(AgendamentoNome, map[]), "João Silva", 12).bot;
            && afterName.state == AgendamentoZap && afterName.userData["nome"] == "João Silva"
            && var afterZap := Step(afterName, "96999999999", 12).bot;
               && afterZap.state == AgendamentoMedico && afterZap.userData["whatsapp"] == "96999999999"
  {
  }
}

=== FILE: calendar.dfy ===
/**
 * `create_appointment` of `GoogleService`: the event body sent to Google
 * Calendar, with an end thirty minutes after the start. The Calendar API
 * call is the `insert` parameter, from event body to the created event's
 * `htmlLink` (which the reply may lack) or the text of the `HttpError` it
 * raised.
 */
module Calendar {
  import opened Wrappers
  import opened Text
  import opened Dates

  const TimeZone := "America/Fortaleza"
  const Zulu := 'Z'

  /** One end of the event: the date-time text and the zone. */
  datatype EventTime = EventTime(dateTime: string, timeZone: string)

  /** The event body; `attendees` is absent unless a doctor's e-mail was given. */
  datatype Event = Event(summary: string, description: string, start: EventTime, end: EventTime,
                         attendees: Option<seq<string>>)

  /** Why the end time cannot be computed: `fromisoformat` rejects the text, or the date overflows. */
  datatype EndTimeError = InvalidIsoFormat | DateOverflow

  /** The instant a start text denotes, once every 'Z' is removed. */
  function StartInstant(startTime: string): Option<DateTime> {
    ParseDateTime(RemoveChar(startTime, Zulu))
  }

  /**
   * The end's `dateTime`: every 'Z' removed, parsed, thirty minutes added,
   * written back in `isoformat` and suffixed with 'Z'.
   */
  function EndTime(startTime: string): (r: Result<string, EndTimeError>)
    ensures r == Failure(InvalidIsoFormat) <==> StartInstant(startTime).None?
    ensures r == Failure(DateOverflow) <==>
              StartInstant(startTime).Some? && AddThirtyMinutes(StartInstant(startTime).value).None?
    ensures r.Success? ==> |r.value| > 0 && r.value[|r.value| - 1] == Zulu
    ensures r.Success? ==> StartInstant(startTime).Some? && StartInstant(r.value).Some?
                           && Microseconds(StartInstant(r.value).value)
                              == Microseconds(StartInstant(startTime).value) + 30 * 60 * 1000000
  {
    match StartInstant(startTime)
    case None => Failure(InvalidIsoFormat)
    case Some(t) =>
      match AddThirtyMinutes(t)
      case None => Failure(DateOverflow)
      case Some(u) =>
        var text := FormatDateTime(u);
        EndTextReads(u);
        Success(text + [Zulu])
  }

  /** The end text reads back as the instant it was written from. */
  lemma EndTextReads(u: DateTime)
    requires Valid(u)
    ensures StartInstant(FormatDateTime(u) + [Zulu]) == Some(u)
  {
    var text := FormatDateTime(u);
    RemoveCharAppend(text, [Zulu], Zulu);
    assert RemoveChar([Zulu], Zulu) == [];
    assert RemoveChar(text, Zulu) + [] == text;
    ParseFormatDateTime(u);
  }

  /** `if doctor_email:`: a missing or empty e-mail invites nobody. */
  predicate Truthy(email: Option<string>) {
    email.Some? && email.value != ""
  }

  /** The event body for a start whose end could be computed. */
  function BuildEvent(summary: string, description: string, startTime: string, endTime: string,
                      doctorEmail: Option<string>): (e: Event)
    ensures e.start == EventTime(startTime, TimeZone) && e.end == EventTime(endTime, TimeZone)
    ensures e.attendees.Some? <==> Truthy(doctorEmail)
    ensures e.attendees.Some? ==> e.attendees.value == [doctorEmail.value]
  {
    Event(summary, description, EventTime(startTime, TimeZone), EventTime(endTime, TimeZone),
          if Truthy(doctorEmail) then Some([doctorEmail.value]) else None)
  }

  /**
   * What `create_appointment` does: `False` without credentials, the
   * created event's link (possibly missing), `None` after an `HttpError`,
   * or the exception from computing the end, which the source lets escape.
   */
  datatype Outcome = NoCredentials | Created(link: Option<string>) | InsertFailed | Raised(error: EndTimeError)

  function CreateAppointment(hasCreds: bool, summary: string, description: string, startTime: string,
                             doctorEmail: Option<string>, insert: Event -> Result<Option<string>, string>): (r: Outcome)
    ensures r == NoCredentials <==> !hasCreds
    ensures r.Raised? <==> hasCreds && EndTime(startTime).Failure?
    ensures r.Created? ==> (EndTime(startTime).Success? &&
                            insert(BuildEvent(summary, description, startTime, EndTime(startTime).value, doctorEmail))
                            == Success(r.link))
    ensures hasCreds && EndTime(startTime).Success? ==>
              var sent := insert(BuildEvent(summary, description, startTime, EndTime(startTime).value, doctorEmail));
              (sent.Success? ==> r == Created(sent.value)) && (sent.Failure? ==> r == InsertFailed)
    ensures r == InsertFailed ==>
              EndTime(startTime).Success? &&
              insert(BuildEvent(summary, description, startTime, EndTime(startTime).value, doctorEmail)).Failure?
    ensures r.Raised? ==> r.error == EndTime(startTime).error
  {
    if !hasCreds then NoCredentials
    else
      match EndTime(startTime)
      case Failure(err) => Raised(err)
      case Success(endTime) =>
        match insert(BuildEvent(summary, description, startTime, endTime, doctorEmail))
        case Success(link) => Created(link)
        case Failure(_) => InsertFailed
  }

  /** A start written by `isoformat` with a trailing 'Z' ends thirty minutes later, on the clock. */
  lemma EndTimeIsThirtyMinutesLater(t: DateTime)
    requires Valid(t)
    requires !(t.year == 9999 && t.month == 12 && t.day == 31 && t.hour == 23 && t.minute >= 30)
    ensures AddThirtyMinutes(t).Some?
    ensures EndTime(FormatDateTime(t) + [Zulu]) == Success(FormatDateTime(AddThirtyMinutes(t).value) + [Zulu])
  {
    EndTextReads(t);
  }

  /** A start the end cannot be computed for never reaches the calendar. */
  lemma BadStartInsertsNothing(summary: string, description: string, startTime: string, doctorEmail: Option<string>,
                               insert1: Event -> Result<Option<string>, string>,
                               insert2: Event -> Result<Option<string>, string>)
    requires EndTime(startTime).Failure?
    ensures CreateAppointment(true, summary, description, startTime, doctorEmail, insert1)
         == CreateAppointment(true, summary, description, startTime, doctorEmail, insert2)
         == Raised(EndTime(startTime).error)
  {
  }
}

=== FILE: chat_endpoint.dfy ===
/**
 * The `/api/chat` handler `ai_chat`: it asks the provider for a reply and,
 * when the provider is unavailable or the call fails, answers with a canned
 * reply chosen by keywords in the user's message.
 */
module ChatEndpoint {
  import opened Wrappers
  import opened Text
  import opened Config
  import opened Gemini

  const Greeting := "Olá! Sou o Vizô. Posso ajudar com agendamentos, exames e dúvidas sobre sua visão. Como posso te ajudar agora?"
  const SchedulingReply := "Claro! Para agendarmos, me informe seu nome completo e WhatsApp com DDD. Posso sugerir horários disponíveis após isso."
  const ExamReply := "Posso auxiliar com resultados de exames. Se desejar, posso encaminhar o relatório ao seu WhatsApp. Informe seu nome e número."
  const PriceReply := "Podemos verificar opções de convênio e valores. Me diga qual procedimento você precisa para eu orientar melhor."

  const SchedulingKeywords: seq<string> := ["agendar", "consulta", "marcar", "atendimento"]
  const ExamKeywords: seq<string> := ["exame", "resultado", "laudo", "retinografia", "campo visual"]
  const PriceKeywords: seq<string> := ["convênio", "preço", "valor", "particular"]

  /** The model `ai_chat` asks for; it passes no token cap. */
  const ChatModel := "gemini-1.5-flash"

  /** `any(k in text for k in keywords)`. */
  predicate Mentions(text: string, keywords: seq<string>) {
    exists k :: k in keywords && Contains(text, k)
  }

  /**
   * The canned reply: scheduling keywords win over exam keywords, which win
   * over price keywords; with none of them, the greeting. Matching is on the
   * lower-cased message.
   */
  function FallbackReply(userMessage: string): (r: string)
    ensures r == Greeting || r == SchedulingReply || r == ExamReply || r == PriceReply
    ensures r == SchedulingReply <==> Mentions(Lower(userMessage), SchedulingKeywords)
    ensures r == ExamReply <==>
              !Mentions(Lower(userMessage), SchedulingKeywords) && Mentions(Lower(userMessage), ExamKeywords)
    ensures r == PriceReply <==>
              && !Mentions(Lower(userMessage), SchedulingKeywords)
              && !Mentions(Lower(userMessage), ExamKeywords)
              && Mentions(Lower(userMessage), PriceKeywords)
  {
    var text := Lower(userMessage);
    if Mentions(text, SchedulingKeywords) then SchedulingReply
    else if Mentions(text, ExamKeywords) then ExamReply
    else if Mentions(text, PriceKeywords) then PriceReply
    else Greeting
  }

  /** Casing the message differently never changes the canned reply. */
  lemma FallbackIgnoresCase(userMessage: string)
    ensures FallbackReply(Lower(userMessage)) == FallbackReply(userMessage)
  {
    LowerIdempotent(userMessage);
  }

  /** A message that mentions both a booking and an exam gets the booking reply. */
  lemma FallbackSchedulingFirst(userMessage: string)
    requires Contains(Lower(userMessage), "consulta") && Contains(Lower(userMessage), "exame")
    ensures FallbackReply(userMessage) == SchedulingReply
  {
    assert "consulta" in SchedulingKeywords;
  }

  /** The messages `ai_chat` sends: the system prompt, the history as given, then the user's turn. */
  function ChatMessages(systemPrompt: string, history: seq<Message>, userMessage: string): seq<Message> {
    [Message(Some("system"), Some(systemPrompt))] + history + [Message(Some("user"), Some(userMessage))]
  }

  /** The JSON answer: the reply and whether the `fallback` flag is set. */
  datatype ChatResponse = ChatResponse(reply: string, fallback: bool)

  /**
   * `ai_chat` once the system prompt is built: without a provider, the canned
   * reply; otherwise the provider's reply, or the canned reply if the call
   * fails in any way.
   */
  function AiChat(settings: ProviderSettings, hasRequests: bool, systemPrompt: string,
                  history: seq<Message>, userMessage: string, post: Transport): (r: ChatResponse)
    ensures r.fallback ==> r.reply == FallbackReply(userMessage)
    ensures !settings.available ==> r.fallback
    ensures !r.fallback ==> r.reply != []
    ensures !r.fallback ==>
              Chat(settings, hasRequests, ChatMessages(systemPrompt, history, userMessage), None, ChatModel, post)
                == Success(r.reply)
    ensures settings.available ==>
              var out := Chat(settings, hasRequests, ChatMessages(systemPrompt, history, userMessage), None, ChatModel, post);
              (out.Success? ==> r == ChatResponse(out.value, false))
              && (out.Failure? ==> r == ChatResponse(FallbackReply(userMessage), true))
  {
    if !settings.available then
      ChatResponse(FallbackReply(userMessage), true)
    else
      match Chat(settings, hasRequests, ChatMessages(systemPrompt, history, userMessage), None, ChatModel, post)
      case Success(reply) => ChatResponse(reply, false)
      case Failure(_) => ChatResponse(FallbackReply(userMessage), true)
  }

  /**
   * The no-provider path and the failed-call path give the same answer: both
   * are the canned reply with the fallback flag, and neither depends on the
   * transport when no provider is available.
   */
  lemma FallbackPathsAgree(settings: ProviderSettings, other: ProviderSettings, hasRequests: bool,
                           systemPrompt: string, history: seq<Message>, userMessage: string,
                           post1: Transport, post2: Transport)
    requires !settings.available
    requires Chat(other, hasRequests, ChatMessages(systemPrompt, history, userMessage), None, ChatModel, post2).Failure?
    ensures AiChat(settings, hasRequests, systemPrompt, history, userMessage, post1)
         == AiChat(other, hasRequests, systemPrompt, history, userMessage, post2)
         == ChatResponse(FallbackReply(userMessage), true)
  {
  }

  /** The request `ai_chat` sends carries no token cap and starts with the system instruction. */
  /** The system prompt becomes one prefixed `user` turn. */
  lemma SystemTurn(systemPrompt: string)
    requires systemPrompt != []
    ensures BuildContents([Message(Some("system"), Some(systemPrompt))])
            == [Content("user", [Part(SystemPrefix + systemPrompt)])]
  {
    WireOfOneMessage(Message(Some("system"), Some(systemPrompt)));
  }

  /** The user's message becomes one `user` turn, or none when it is empty. */
  lemma UserTurn(userMessage: string)
    ensures BuildContents([Message(Some("user"), Some(userMessage))])
            == if userMessage == [] then [] else [Content("user", [Part(userMessage)])]
  {
    var last := Message(Some("user"), Some(userMessage));
    if userMessage != [] {
      WireOfOneMessage(last);
    } else {
      assert !Kept(last);
    }
  }

  /** The turns `ai_chat` sends: the system turn, the history's turns, then the user's turn. */
  lemma ChatTurns(systemPrompt: string, history: seq<Message>, userMessage: string)
    requires systemPrompt != []
    ensures BuildContents(ChatMessages(systemPrompt, history, userMessage))
            == [Content("user", [Part(SystemPrefix + systemPrompt)])] + BuildContents(history)
               + (if userMessage == [] then [] else [Content("user", [Part(userMessage)])])
  {
    var sys := Message(Some("system"), Some(systemPrompt));
    var last := Message(Some("user"), Some(userMessage));
    assert ChatMessages(systemPrompt, history, userMessage) == ([sys] + history) + [last];
    BuildContentsAppend([sys] + history, [last]);
    BuildContentsAppend([sys], history);
    SystemTurn(systemPrompt);
    UserTurn(userMessage);
  }

  lemma AiChatRequestShape(key: string, systemPrompt: string, history: seq<Message>, userMessage: string)
    requires systemPrompt != []
    ensures var req := BuildRequest(key, ChatMessages(systemPrompt, history, userMessage), None, ChatModel);
            && req.payload.maxOutputTokens.None?
            && |req.payload.contents| >= 1
            && req.payload.contents[0] == Content("user", [Part(SystemPrefix + systemPrompt)])
    ensures var req := BuildRequest(key, ChatMessages(systemPrompt, history, userMessage), None, ChatModel);
            req.payload.contents
            == [Content("user", [Part(SystemPrefix + systemPrompt)])] + BuildContents(history)
               + (if userMessage == [] then [] else [Content("user", [Part(userMessage)])])
  {
    ChatTurns(systemPrompt, history, userMessage);
  }
}

=== FILE: config.dfy ===
/**
 * Start-up configuration of the external chat provider: the boolean
 * environment-flag reader and the decision whether the provider is available.
 */
module Config {
  import opened Wrappers
  import opened Text

  /** The spellings `_get_env_bool` accepts as true, after strip and lower. */
  const TrueWords: seq<string> := ["1", "true", "yes", "y", "on"]

  /**
   * `_get_env_bool`: `value` is the environment variable's value, `None`
   * when the variable is unset.
   */
  function GetEnvBool(value: Option<string>, default: bool): (r: bool)
    ensures value.None? ==> r == default
    ensures value.Some? ==> (r <==> Lower(Strip(value.value)) in TrueWords)
  {
    match value
    case None => default
    case Some(v) => Lower(Strip(v)) in TrueWords
  }

  /** A set variable is read the same whatever whitespace surrounds it. */
  lemma GetEnvBoolIgnoresSpace(v: string, default: bool)
    ensures GetEnvBool(Some(Strip(v)), default) == GetEnvBool(Some(v), default)
  {
    StripIdempotent(v);
  }

  /** A set variable is read the same however it is cased. */
  lemma GetEnvBoolIgnoresCase(v: string, default: bool)
    ensures GetEnvBool(Some(Lower(v)), default) == GetEnvBool(Some(v), default)
  {
    LowerStripCommute(v);
    LowerIdempotent(Strip(v));
    assert Lower(Strip(Lower(v))) == Lower(Strip(v));
  }

  /** Once set, the variable alone decides: the default no longer matters. */
  lemma GetEnvBoolSetIgnoresDefault(v: string)
    ensures GetEnvBool(Some(v), true) == GetEnvBool(Some(v), false)
  {
  }

  /**
   * `_read_key_from_file`: `contents` is the file's text, `None` when the
   * file is missing or unreadable. A blank file yields no key.
   */
  function ReadKeyFile(contents: Option<string>): (r: Option<string>)
    ensures r.Some? ==> r.value != [] && Strip(r.value) == r.value
    ensures r.Some? ==> contents.Some? && r.value == Strip(contents.value)
    ensures r.None? <==> contents.None? || Strip(contents.value) == []
  {
    match contents
    case None => None
    case Some(text) =>
      var key := Strip(text);
      StripIdempotent(text);
      if key != [] then Some(key) else None
  }

  /** The external provider's key and whether it may be called. */
  datatype ProviderSettings = ProviderSettings(apiKey: Option<string>, available: bool)

  /** The provider may be called: available and holding a non-empty key. */
  predicate Configured(s: ProviderSettings) {
    s.available && s.apiKey.Some? && s.apiKey.value != []
  }

  /**
   * The module-level start-up of the provider: the key comes from the
   * environment, or from the key file when the variable is unset or empty;
   * the enable flag defaults to "a key was found".
   */
  function ProviderFromEnvironment(envKey: Option<string>, keyFile: Option<string>,
                                   enableFlag: Option<string>): (r: ProviderSettings)
    ensures r.available ==> Configured(r)
    ensures r.apiKey.Some? ==> r.apiKey.value != []
    ensures envKey.Some? && envKey.value != [] ==> r.apiKey == envKey
    ensures (envKey.None? || envKey.value == []) ==> r.apiKey == ReadKeyFile(keyFile)
    ensures enableFlag.None? ==> (r.available <==> r.apiKey.Some?)
    ensures r.available <==> r.apiKey.Some? && GetEnvBool(enableFlag, true)
  {
    var key := if envKey.Some? && envKey.value != [] then envKey else ReadKeyFile(keyFile);
    var hasKey := key.Some? && key.value != [];
    var enabled := GetEnvBool(enableFlag, hasKey);
    ProviderSettings(key, hasKey && enabled)
  }

  /** A padded key file yields the key without its padding. */
  lemma KeyFileIsStripped(pad: string, key: string, trail: string)
    requires AllSpace(pad) && AllSpace(trail)
    requires key != [] && !IsSpace(key[0]) && !IsSpace(key[|key| - 1])
    ensures ReadKeyFile(Some(pad + key + trail)) == Some(key)
  {
    StripPadded(pad, key, trail);
  }

  /**
   * With the environment key unset, the provider runs on the file's key
   * exactly when the file holds one and the enable flag does not say no.
   */
  lemma FileKeyProvider(keyFile: Option<string>, enableFlag: Option<string>)
    ensures var r := ProviderFromEnvironment(None, keyFile, enableFlag);
            r.available <==> ReadKeyFile(keyFile).Some? && GetEnvBool(enableFlag, true)
  {
  }
}

=== FILE: dates.dfy ===
/**
 * The slice of Python's `datetime` the Google service uses: naive
 * date-times in the proleptic Gregorian calendar, their `isoformat()` text,
 * `fromisoformat()` of that text, and adding thirty minutes.
 */
module Dates {
  import opened Wrappers
  import opened Text
  import opened PyInt

  function Pow10(n: nat): (p: nat)
    ensures p >= 1
  {
    if n == 0 then 1 else 10 * Pow10(n - 1)
  }

  /** `n` in decimal, zero-padded to `width` digits. */
  function Pad(n: nat, width: nat): (s: string)
    requires n < Pow10(width)
    ensures |s| == width && AllDigits(s) && Value(s) == n
  {
    if width == 0 then ""
    else
      var front := Pad(n / 10, width - 1);
      var s := front + [DigitChar(n % 10)];
      assert s[..|s| - 1] == front;
      s
  }

  predicate IsLeap(y: int) {
    y % 4 == 0 && (y % 100 != 0 || y % 400 == 0)
  }

  function DaysInYear(y: int): int {
    if IsLeap(y) then 366 else 365
  }

  function DaysInMonth(y: int, m: int): (n: int)
    requires 1 <= m <= 12
    ensures 28 <= n <= 31
  {
    if m == 2 then (if IsLeap(y) then 29 else 28)
    else if m == 4 || m == 6 || m == 9 || m == 11 then 30
    else 31
  }

  /** A date `datetime` can represent: years 1 to 9999. */
  predicate ValidDate(y: int, m: int, d: int) {
    1 <= y <= 9999 && 1 <= m <= 12 && 1 <= d <= DaysInMonth(y, m)
  }

  /** A naive `datetime`. */
  datatype DateTime = DateTime(year: int, month: int, day: int,
                               hour: int, minute: int, second: int, microsecond: int)

  predicate Valid(t: DateTime) {
    && ValidDate(t.year, t.month, t.day)
    && 0 <= t.hour < 24 && 0 <= t.minute < 60 && 0 <= t.second < 60
    && 0 <= t.microsecond < 1000000
  }

  /** `date.isoformat()`: `YYYY-MM-DD`. */
  function FormatDate(y: int, m: int, d: int): (s: string)
    requires ValidDate(y, m, d)
    ensures |s| == 10 && s[4] == '-' && s[7] == '-'
    ensures AllDigits(s[..4]) && Value(s[..4]) == y
    ensures AllDigits(s[5..7]) && Value(s[5..7]) == m
    ensures AllDigits(s[8..]) && Value(s[8..]) == d
  {
    var ys, ms, ds := Pad(y, 4), Pad(m, 2), Pad(d, 2);
    var s := ys + "-" + ms + "-" + ds;
    assert s[..4] == ys && s[5..7] == ms && s[8..] == ds;
    s
  }

  /** The `.ffffff` part of `isoformat()`, present only when the microseconds are not zero. */
  function FormatFraction(us: int): (s: string)
    requires 0 <= us < 1000000
    ensures |s| == 0 || |s| == 7
  {
    if us == 0 then "" else "." + Pad(us, 6)
  }

  /** `time.isoformat()` without fraction: `HH:MM:SS`. */
  function FormatClock(h: int, mi: int, sec: int): (s: string)
    requires 0 <= h < 24 && 0 <= mi < 60 && 0 <= sec < 60
    ensures |s| == 8
  {
    Pad(h, 2) + ":" + Pad(mi, 2) + ":" + Pad(sec, 2)
  }

  /** `datetime.isoformat()`: `YYYY-MM-DDTHH:MM:SS`, then `.ffffff` if the microseconds are not zero. */
  function FormatDateTime(t: DateTime): (s: string)
    requires Valid(t)
    ensures |s| == 19 || |s| == 26
    ensures 'Z' !in s
  {
    var s := FormatDate(t.year, t.month, t.day) + "T" + FormatClock(t.hour, t.minute, t.second)
             + FormatFraction(t.microsecond);
    assert forall i :: 0 <= i < |s| ==> IsDigit(s[i]) || s[i] in "-T:.";
    s
  }

  /** The number in `s[from..from + width]` if those are all digits. */
  function Field(s: string, from: nat, width: nat): Option<int>
    requires from + width <= |s|
  {
    var f := s[from..from + width];
    if AllDigits(f) then Some(Value(f)) else None
  }

  /** The three numbers of `YYYY-MM-DD`, not yet checked for range. */
  function ParseDate(s: string): Option<(int, int, int)> {
    if |s| != 10 || s[4] != '-' || s[7] != '-' then None
    else
      match (Field(s, 0, 4), Field(s, 5, 2), Field(s, 8, 2))
      case (Some(y), Some(m), Some(d)) => Some((y, m, d))
      case _ => None
  }

  /** The three numbers of `HH:MM:SS`, not yet checked for range. */
  function ParseClock(s: string): Option<(int, int, int)> {
    if |s| != 8 || s[2] != ':' || s[5] != ':' then None
    else
      match (Field(s, 0, 2), Field(s, 3, 2), Field(s, 6, 2))
      case (Some(h), Some(mi), Some(sec)) => Some((h, mi, sec))
      case _ => None
  }

  /** Nothing, or `.ffffff`. */
  function ParseFraction(s: string): Option<int> {
    if s == [] then Some(0)
    else if |s| == 7 && s[0] == '.' then Field(s, 1, 6)
    else None
  }

  /**
   * `datetime.fromisoformat(s)` for the two shapes `isoformat()` writes;
   * `None` is the `ValueError`, including for a date that does not exist.
   */
  function ParseDateTime(s: string): (r: Option<DateTime>)
    ensures r.Some? ==> Valid(r.value)
  {
    if |s| < 19 || s[10] != 'T' then None
    else
      match (ParseDate(s[..10]), ParseClock(s[11..19]), ParseFraction(s[19..]))
      case (Some((y, m, d)), Some((h, mi, sec)), Some(us)) =>
        var t := DateTime(y, m, d, h, mi, sec, us);
        if Valid(t) then Some(t) else None
      case _ => None
  }

  lemma ParseFormatDate(y: int, m: int, d: int)
    requires ValidDate(y, m, d)
    ensures ParseDate(FormatDate(y, m, d)) == Some((y, m, d))
  {
    var s := FormatDate(y, m, d);
    assert s[0..4] == Pad(y, 4);
    assert s[5..7] == Pad(m, 2);
    assert s[8..10] == Pad(d, 2);
  }

  lemma ParseFormatClock(h: int, mi: int, sec: int)
    requires 0 <= h < 24 && 0 <= mi < 60 && 0 <= sec < 60
    ensures ParseClock(FormatClock(h, mi, sec)) == Some((h, mi, sec))
  {
    var s := FormatClock(h, mi, sec);
    assert s[0..2] == Pad(h, 2);
    assert s[3..5] == Pad(mi, 2);
    assert s[6..8] == Pad(sec, 2);
  }

  lemma ParseFormatFraction(us: int)
    requires 0 <= us < 1000000
    ensures ParseFraction(FormatFraction(us)) == Some(us)
  {
    if us != 0 {
      assert FormatFraction(us)[1..7] == Pad(us, 6);
    }
  }

  /** `fromisoformat` reads back what `isoformat` wrote. */
  lemma ParseFormatDateTime(t: DateTime)
    requires Valid(t)
    ensures ParseDateTime(FormatDateTime(t)) == Some(t)
  {
    var date := FormatDate(t.year, t.month, t.day);
    var clock := FormatClock(t.hour, t.minute, t.second);
    var fraction := FormatFraction(t.microsecond);
    var s := FormatDateTime(t);
    assert s == date + "T" + clock + fraction;
    assert s[..10] == date;
    assert s[11..19] == clock;
    assert s[19..] == fraction;
    ParseFormatDate(t.year, t.month, t.day);
    ParseFormatClock(t.hour, t.minute, t.second);
    ParseFormatFraction(t.microsecond);
  }

  // ------------------------------------------------------------ arithmetic

  /** Days in the years before `y`. */
  function DaysBeforeYear(y: int): int
    decreases y
  {
    if y <= 1 then 0 else DaysBeforeYear(y - 1) + DaysInYear(y - 1)
  }

  /** Days in the months of year `y` before month `m`. */
  function DaysBeforeMonth(y: int, m: int): int
    requires 1 <= m <= 12
  {
    if m == 1 then 0 else DaysBeforeMonth(y, m - 1) + DaysInMonth(y, m - 1)
  }

  /** `date.toordinal()`: day 1 is 0001-01-01. */
  function Ordinal(y: int, m: int, d: int): int
    requires 1 <= m <= 12
  {
    DaysBeforeYear(y) + DaysBeforeMonth(y, m) + d
  }

  /** Microseconds since 0001-01-01T00:00:00, the measure `timedelta` arithmetic adds to. */
  function Microseconds(t: DateTime): int
    requires 1 <= t.month <= 12
  {
    ((((Ordinal(t.year, t.month, t.day) - 1) * 24 + t.hour) * 60 + t.minute) * 60 + t.second) * 1000000
      + t.microsecond
  }

  /** December 31st is the last day of the year. */
  lemma DecemberEndsYear(y: int)
    ensures DaysBeforeMonth(y, 12) + 31 == DaysInYear(y)
  {
    var feb := DaysInMonth(y, 2);
    assert DaysBeforeMonth(y, 2) == 31;
    assert DaysBeforeMonth(y, 3) == 31 + feb;
    assert DaysBeforeMonth(y, 4) == 62 + feb;
    assert DaysBeforeMonth(y, 5) == 92 + feb;
    assert DaysBeforeMonth(y, 6) == 123 + feb;
    assert DaysBeforeMonth(y, 7) == 153 + feb;
    assert DaysBeforeMonth(y, 8) == 184 + feb;
    assert DaysBeforeMonth(y, 9) == 215 + feb;
    assert DaysBeforeMonth(y, 10) == 245 + feb;
    assert DaysBeforeMonth(y, 11) == 276 + feb;
    assert DaysBeforeMonth(y, 12) == 306 + feb;
  }

  /** The following calendar day; `None` past the last representable day. */
  function NextDay(y: int, m: int, d: int): (r: Option<(int, int, int)>)
    requires ValidDate(y, m, d)
    ensures r.None? <==> y == 9999 && m == 12 && d == 31
    ensures r.Some? ==> ValidDate(r.value.0, r.value.1, r.value.2)
    ensures r.Some? ==> Ordinal(r.value.0, r.value.1, r.value.2) == Ordinal(y, m, d) + 1
  {
    if d < DaysInMonth(y, m) then Some((y, m, d + 1))
    else if m < 12 then Some((y, m + 1, 1))
    else if y < 9999 then
      DecemberEndsYear(y);
      Some((y + 1, 1, 1))
    else None
  }

  /**
   * `t + timedelta(minutes=30)`: thirty minutes later on the same clock,
   * `None` for the `OverflowError` past year 9999.
   */
  function AddThirtyMinutes(t: DateTime): (r: Option<DateTime>)
    requires Valid(t)
    ensures r.None? <==> t.year == 9999 && t.month == 12 && t.day == 31 && t.hour == 23 && t.minute >= 30
    ensures r.Some? ==> Valid(r.value)
    ensures r.Some? ==> Microseconds(r.value) == Microseconds(t) + 30 * 60 * 1000000
  {
    if t.minute + 30 < 60 then Some(t.(minute := t.minute + 30))
    else if t.hour < 23 then Some(t.(hour := t.hour + 1, minute := t.minute - 30))
    else
      match NextDay(t.year, t.month, t.day)
      case None => None
      case Some((y, m, d)) => Some(DateTime(y, m, d, 0, t.minute - 30, t.second, t.microsecond))
  }
}

=== FILE: drive.dfy ===
/**
 * The Drive knowledge base of `GoogleService`: listing the PDFs of a
 * folder and finding one by part of its name. The Drive API call is the
 * `list` parameter, from query text to the listed files or the text of
 * the `HttpError` it raised; a reply without a `files` key is the empty
 * listing.
 */
module Drive {
  import opened Wrappers
  import opened Text

  /** A listed file: the four fields the listing asks Drive for. */
  datatype DriveFile = DriveFile(id: string, name: string,
                                 webViewLink: Option<string>, webContentLink: Option<string>)

  type Listing = Result<seq<DriveFile>, string>

  /** The marker of a folder id that was never filled in. */
  const PlaceholderMarker := "digite_o_id"

  /** The folder id shipped as the default. */
  const DefaultFolder := "digite_o_id_da_pasta_aqui"

  const PdfFilter := " and mimeType='application/pdf' and trashed=false"

  /** The query of `list_knowledge_files`: the PDFs in the folder that are not in the trash. */
  function KnowledgeQuery(folderId: string): (q: string)
    ensures StartsWith(q, "'" + folderId + "' in parents")
    ensures EndsWith(q, PdfFilter)
    ensures |q| == |"'" + folderId + "' in parents"| + |PdfFilter|
  {
    var head := "'" + folderId + "' in parents";
    var q := head + PdfFilter;
    assert q[..|head|] == head;
    assert q[|q| - |PdfFilter|..] == PdfFilter;
    q
  }

  /** The query of `search_file_by_name`: the same filter plus a name condition. */
  function SearchQuery(folderId: string, nameQuery: string): (q: string)
    ensures StartsWith(q, "'" + folderId + "' in parents")
    ensures OccursAt(q, " and name contains '" + nameQuery + "'", |"'" + folderId + "' in parents"|)
    ensures EndsWith(q, PdfFilter)
    ensures |q| == |"'" + folderId + "' in parents"| + |" and name contains '" + nameQuery + "'"| + |PdfFilter|
  {
    var head := "'" + folderId + "' in parents";
    var cond := " and name contains '" + nameQuery + "'";
    var q := head + cond + PdfFilter;
    assert q[..|head|] == head;
    assert q[|head|..|head| + |cond|] == cond;
    assert OccursAt(q, cond, |head|);
    assert q[|q| - |PdfFilter|..] == PdfFilter;
    q
  }

  /**
   * `list_knowledge_files`: nothing without credentials, nothing for a
   * placeholder folder id (without asking Drive), nothing after an
   * `HttpError`, and otherwise the listed files.
   */
  function ListKnowledgeFiles(hasCreds: bool, folderId: string, list: string -> Listing): (r: seq<DriveFile>)
    ensures !hasCreds || Contains(folderId, PlaceholderMarker) ==> r == []
    ensures r != [] ==> list(KnowledgeQuery(folderId)) == Success(r)
  {
    if !hasCreds then []
    else if Contains(folderId, PlaceholderMarker) then []
    else
      match list(KnowledgeQuery(folderId))
      case Failure(_) => []
      case Success(files) => files
  }

  /**
   * `search_file_by_name`: the first file Drive lists for the name query,
   * `None` without credentials, after an `HttpError` or when nothing matches.
   */
  function SearchFileByName(hasCreds: bool, folderId: string, nameQuery: string,
                            list: string -> Listing): (r: Option<DriveFile>)
    ensures r.Some? <==> hasCreds && list(SearchQuery(folderId, nameQuery)).Success?
                         && list(SearchQuery(folderId, nameQuery)).value != []
    ensures r.Some? ==> r.value == list(SearchQuery(folderId, nameQuery)).value[0]
  {
    if !hasCreds then None
    else
      match list(SearchQuery(folderId, nameQuery))
      case Failure(_) => None
      case Success(files) => if files != [] then Some(files[0]) else None
  }

  /** The default folder id counts as a placeholder, so its listing is empty whatever Drive holds. */
  lemma DefaultFolderListsNothing(hasCreds: bool, list: string -> Listing)
    ensures ListKnowledgeFiles(hasCreds, DefaultFolder, list) == []
  {
    assert OccursAt(DefaultFolder, PlaceholderMarker, 0);
  }

  /** A listing made with credentials for a real folder is exactly what Drive answered. */
  lemma ListingIsDriveAnswer(folderId: string, list: string -> Listing)
    requires !Contains(folderId, PlaceholderMarker)
    ensures ListKnowledgeFiles(true, folderId, list)
         == (if list(KnowledgeQuery(folderId)).Success? then list(KnowledgeQuery(folderId)).value else [])
  {
  }

  /** Searching does not look at the placeholder marker: it asks Drive for any folder id. */
  lemma SearchIgnoresPlaceholder(nameQuery: string, list: string -> Listing)
    requires list(SearchQuery(DefaultFolder, nameQuery)) == Success([DriveFile("f", "a.pdf", None, None)])
    ensures SearchFileByName(true, DefaultFolder, nameQuery, list) == Some(DriveFile("f", "a.pdf", None, None))
  {
  }

  /** Cutting the name condition out of a search query leaves the listing query of the same folder. */
  lemma SearchQueryIsListingPlusName(folderId: string, nameQuery: string)
    ensures var q := SearchQuery(folderId, nameQuery);
            var at := |"'" + folderId + "' in parents"|;
            var len := |" and name contains '" + nameQuery + "'"|;
            q[..at] + q[at + len..] == KnowledgeQuery(folderId)
  {
    var q := SearchQuery(folderId, nameQuery);
    var head := "'" + folderId + "' in parents";
    var cond := " and name contains '" + nameQuery + "'";
    assert q == head + cond + PdfFilter;
    assert q[..|head|] == head;
    assert q[|head| + |cond|..] == PdfFilter;
  }

  /** Different folder ids give different listing queries. */
  lemma KnowledgeQueryInjective(a: string, b: string)
    requires KnowledgeQuery(a) == KnowledgeQuery(b)
    ensures a == b
  {
    var qa := KnowledgeQuery(a);
    assert |qa| == |a| + |"' in parents"| + |PdfFilter| + 1;
    assert |a| == |b|;
    assert qa[1..1 + |a|] == a;
    assert KnowledgeQuery(b)[1..1 + |b|] == b;
  }
}

=== FILE: gemini.dfy ===
/**
 * `deepseek_chat`: despite its name, one `generateContent` call to the Gemini
 * API. The request half turns chat messages into Gemini `contents`; the
 * response half extracts the reply text from the first candidate. The HTTP
 * POST between them is a parameter of `Chat`.
 */
module Gemini {
  import opened Wrappers
  import opened Text
  import opened Config

  /** A chat message as the caller hands it over; `role` and `content` may be absent or null. */
  datatype Message = Message(role: Option<string>, content: Option<string>)

  /** The wire shape of one Gemini turn: `{role, parts: [{text}]}`. */
  datatype Part = Part(text: string)
  datatype Content = Content(role: string, parts: seq<Part>)

  /** The request body; `maxOutputTokens` is `generationConfig.maxOutputTokens`, absent when `None`. */
  datatype Payload = Payload(contents: seq<Content>, maxOutputTokens: Option<int>)

  /** One POST: URL, the key sent as the `key` query parameter, the JSON body and the timeout. */
  datatype Request = Request(url: string, key: string, payload: Payload, timeoutSeconds: nat)

  const SystemPrefix := "Instrução do sistema: "
  const Endpoint := "https://generativelanguage.googleapis.com/v1beta/models/"
  const TimeoutSeconds: nat := 30

  /** `str(m.get("content") or "")`: a missing or null content reads as the empty string. */
  function MessageText(m: Message): string {
    if m.content.Some? then m.content.value else ""
  }

  /** `m.get("role") or "user"`: a missing, null or empty role reads as "user". */
  function RoleOf(m: Message): string {
    if m.role.Some? && m.role.value != "" then m.role.value else "user"
  }

  /** A message produces a turn only when its text is non-empty; it is not stripped first. */
  predicate Kept(m: Message) {
    MessageText(m) != ""
  }

  /** The Gemini turn of one kept message. */
  function ToWire(m: Message): (c: Content)
    requires Kept(m)
    ensures |c.parts| == 1 && c.parts[0].text != ""
    ensures c.role == "model" <==> RoleOf(m) == "assistant"
    ensures c.role == "user" <==> RoleOf(m) != "assistant"
    ensures EndsWith(c.parts[0].text, MessageText(m))
  {
    var text := MessageText(m);
    var role := RoleOf(m);
    if role == "system" then
      assert (SystemPrefix + text)[|SystemPrefix|..] == text;
      Content("user", [Part(SystemPrefix + text)])
    else if role == "assistant" then
      Content("model", [Part(text)])
    else
      Content("user", [Part(text)])
  }

  /** The `contents` list: one turn per kept message, in input order. */
  function BuildContents(msgs: seq<Message>): (r: seq<Content>)
    ensures |r| <= |msgs|
    ensures forall c :: c in r ==> |c.parts| == 1 && c.parts[0].text != "" && (c.role == "user" || c.role == "model")
    ensures forall m :: m in msgs && Kept(m) ==> ToWire(m) in r
    ensures forall c :: c in r ==> exists m :: m in msgs && Kept(m) && c == ToWire(m)
  {
    if msgs == [] then []
    else
      var rest := BuildContents(msgs[1..]);
      var head := if Kept(msgs[0]) then [ToWire(msgs[0])] else [];
      assert forall m :: m in msgs ==> m == msgs[0] || m in msgs[1..];
      assert forall c :: c in head + rest ==> c in head || c in rest;
      assert Kept(msgs[0]) ==> ToWire(msgs[0]) in head + rest;
      assert forall c :: c in head + rest ==> exists m :: m in msgs && Kept(m) && c == ToWire(m) by {
        forall c | c in head + rest
          ensures exists m :: m in msgs && Kept(m) && c == ToWire(m)
        {
          if c in head {
            assert msgs[0] in msgs;
          } else {
            var m :| m in msgs[1..] && Kept(m) && c == ToWire(m);
            assert m in msgs;
          }
        }
      }
      head + rest
  }

  /** Turns keep the input order: the list of a concatenation is the concatenation of the lists. */
  lemma {:induction false} BuildContentsAppend(a: seq<Message>, b: seq<Message>)
    ensures BuildContents(a + b) == BuildContents(a) + BuildContents(b)
  {
    if a != [] {
      var head := if Kept(a[0]) then [ToWire(a[0])] else [];
      assert (a + b)[0] == a[0];
      assert (a + b)[1..] == a[1..] + b;
      BuildContentsAppend(a[1..], b);
      calc {
        BuildContents(a + b);
        head + BuildContents(a[1..] + b);
        head + (BuildContents(a[1..]) + BuildContents(b));
        (head + BuildContents(a[1..])) + BuildContents(b);
      }
    } else {
      assert a + b == b;
    }
  }

  /** A message with missing, null or empty content contributes nothing, wherever it stands. */
  lemma BuildContentsDropsEmpty(a: seq<Message>, m: Message, b: seq<Message>)
    requires !Kept(m)
    ensures BuildContents(a + [m] + b) == BuildContents(a + b)
  {
    BuildContentsAppend(a + [m], b);
    BuildContentsAppend(a, [m]);
    BuildContentsAppend(a, b);
    assert BuildContents([m]) == [];
  }

  /** When every message is kept, turn k is the wire form of message k. */
  lemma {:induction false} BuildContentsAllKept(msgs: seq<Message>)
    requires forall i :: 0 <= i < |msgs| ==> Kept(msgs[i])
    ensures |BuildContents(msgs)| == |msgs|
    ensures forall k :: 0 <= k < |msgs| ==> BuildContents(msgs)[k] == ToWire(msgs[k])
  {
    if msgs != [] {
      BuildContentsAllKept(msgs[1..]);
    }
  }

  /** Role mapping of one kept message, with the system prefix on the text. */
  lemma WireOfOneMessage(m: Message)
    requires Kept(m)
    ensures BuildContents([m]) == [ToWire(m)]
    ensures RoleOf(m) == "system" ==>
              ToWire(m) == Content("user", [Part(SystemPrefix + MessageText(m))])
    ensures RoleOf(m) == "assistant" ==> ToWire(m) == Content("model", [Part(MessageText(m))])
    ensures RoleOf(m) != "system" && RoleOf(m) != "assistant" ==>
              ToWire(m) == Content("user", [Part(MessageText(m))])
  {
  }

  /** Whitespace-only content is not blank for the filter: it is sent as it is. */
  lemma WhitespaceContentIsSent(role: Option<string>)
    ensures BuildContents([Message(role, Some(" "))]) != []
  {
    assert Kept(Message(role, Some(" ")));
  }

  /** The URL of `generateContent` for `model`. */
  function GenerateUrl(model: string): string {
    Endpoint + model + ":generateContent"
  }

  /** The request `deepseek_chat` sends for the given arguments and key. */
  function BuildRequest(key: string, msgs: seq<Message>, maxTokens: Option<int>, model: string): Request {
    Request(GenerateUrl(model), key, Payload(BuildContents(msgs), maxTokens), TimeoutSeconds)
  }

  // ---------------------------------------------------------------- response

  /** A member of `parts`: a JSON object whose `text` may be missing, or some non-object value. */
  datatype ResponsePart = DictPart(text: Option<string>) | OtherPart

  /** `candidate["content"]`, whose `parts` may be missing or null. */
  datatype CandidateContent = CandidateContent(parts: Option<seq<ResponsePart>>)

  /** One element of `candidates`, whose `content` may be missing or null. */
  datatype Candidate = Candidate(content: Option<CandidateContent>)

  /** The decoded JSON object of a reply; `candidates` may be missing or null. */
  datatype GenerateResponse = GenerateResponse(candidates: Option<seq<Candidate>>)

  /** The outcome of the POST: status code and the body decoded as a JSON object, if it is one. */
  datatype HttpReply = HttpReply(status: int, body: Option<GenerateResponse>)

  /** Every way `deepseek_chat` can raise instead of returning a reply. */
  datatype ChatError =
    | NotConfigured        // the provider is disabled or has no key
    | RequestsUnavailable  // the HTTP library failed to import
    | Transport            // connection failure or the 30-second timeout
    | HttpStatus(code: int)  // `raise_for_status` on a 4xx or 5xx status
    | MalformedBody        // the body is not a JSON object
    | NoCandidates         // "Resposta vazia da API Gemini"
    | EmptyReply           // "Conteúdo vazio na resposta da API Gemini"

  /** `(candidate.get("content") or {}).get("parts") or []`. */
  function PartsOf(c: Candidate): seq<ResponsePart> {
    if c.content.Some? && c.content.value.parts.Some? then c.content.value.parts.value else []
  }

  /** `p.get("text", "")` for an object part; non-object parts are filtered out. */
  function PartText(p: ResponsePart): string {
    match p
    case DictPart(t) => t.GetOr("")
    case OtherPart => ""
  }

  /** `"".join(texts)` over the object parts. */
  function JoinTexts(parts: seq<ResponsePart>): string {
    if parts == [] then "" else PartText(parts[0]) + JoinTexts(parts[1..])
  }

  /** The response half: the stripped text of the first candidate, never empty. */
  function ParseReply(resp: GenerateResponse): (r: Result<string, ChatError>)
    ensures r == Failure(NoCandidates) <==> resp.candidates.None? || resp.candidates.value == []
    ensures r.Failure? ==> r.error == NoCandidates || r.error == EmptyReply
    ensures r.Success? ==> r.value != [] && Strip(r.value) == r.value
    ensures r.Success? ==> Contains(JoinTexts(PartsOf(resp.candidates.value[0])), r.value)
    ensures r.Success? <==> resp.candidates.Some? && resp.candidates.value != []
                            && Strip(JoinTexts(PartsOf(resp.candidates.value[0]))) != []
    ensures r.Success? ==> r.value == Strip(JoinTexts(PartsOf(resp.candidates.value[0])))
  {
    if resp.candidates.None? || resp.candidates.value == [] then
      Failure(NoCandidates)
    else
      var reply := Strip(JoinTexts(PartsOf(resp.candidates.value[0])));
      StripIdempotent(JoinTexts(PartsOf(resp.candidates.value[0])));
      if reply == [] then Failure(EmptyReply) else Success(reply)
  }

  /** Only the first candidate is read; the others never change the outcome. */
  lemma ParseReplyFirstCandidateOnly(c: Candidate, others: seq<Candidate>)
    ensures ParseReply(GenerateResponse(Some([c] + others))) == ParseReply(GenerateResponse(Some([c])))
  {
  }

  /** The texts of a concatenation of parts are the concatenation of their texts. */
  lemma {:induction false} JoinTextsAppend(a: seq<ResponsePart>, b: seq<ResponsePart>)
    ensures JoinTexts(a + b) == JoinTexts(a) + JoinTexts(b)
  {
    if a != [] {
      assert (a + b)[0] == a[0];
      assert (a + b)[1..] == a[1..] + b;
      JoinTextsAppend(a[1..], b);
      calc {
        JoinTexts(a + b);
        PartText(a[0]) + JoinTexts(a[1..] + b);
        PartText(a[0]) + (JoinTexts(a[1..]) + JoinTexts(b));
        (PartText(a[0]) + JoinTexts(a[1..])) + JoinTexts(b);
      }
    } else {
      assert a + b == b;
    }
  }

  /** A first candidate whose parts hold only whitespace is an empty reply, not a success. */
  lemma {:induction false} BlankCandidateIsEmptyReply(parts: seq<ResponsePart>)
    requires forall k :: 0 <= k < |parts| ==> forall j :: 0 <= j < |PartText(parts[k])| ==> IsSpace(PartText(parts[k])[j])
    ensures ParseReply(GenerateResponse(Some([Candidate(Some(CandidateContent(Some(parts))))]))) == Failure(EmptyReply)
  {
    AllSpaceJoin(parts);
    AllSpaceStrips(JoinTexts(parts));
  }

  lemma {:induction false} AllSpaceJoin(parts: seq<ResponsePart>)
    requires forall k :: 0 <= k < |parts| ==> forall j :: 0 <= j < |PartText(parts[k])| ==> IsSpace(PartText(parts[k])[j])
    ensures forall j :: 0 <= j < |JoinTexts(parts)| ==> IsSpace(JoinTexts(parts)[j])
  {
    if parts != [] {
      AllSpaceJoin(parts[1..]);
      assert JoinTexts(parts) == PartText(parts[0]) + JoinTexts(parts[1..]);
    }
  }

  lemma AllSpaceStrips(s: string)
    requires forall j :: 0 <= j < |s| ==> IsSpace(s[j])
    ensures Strip(s) == []
  {
  }

  // ---------------------------------------------------------------- the call

  /** The POST, abstracted: `None` is a connection failure or a timeout. */
  type Transport = Request -> Option<HttpReply>

  /** `raise_for_status`: 4xx and 5xx statuses raise. */
  predicate IsErrorStatus(status: int) {
    400 <= status < 600
  }

  /** Interprets the POST's outcome: transport, status, body, then the response half. */
  function Interpret(reply: Option<HttpReply>): (r: Result<string, ChatError>)
    ensures r == Failure(Transport) <==> reply.None?
    ensures (r.Failure? && r.error.HttpStatus?) <==> reply.Some? && IsErrorStatus(reply.value.status)
    ensures r.Failure? && r.error.HttpStatus? ==> r.error.code == reply.value.status
    ensures r == Failure(MalformedBody) <==>
              reply.Some? && !IsErrorStatus(reply.value.status) && reply.value.body.None?
    ensures reply.Some? && !IsErrorStatus(reply.value.status) && reply.value.body.Some? ==>
              r == ParseReply(reply.value.body.value)
    ensures r.Success? ==> r.value != [] && Strip(r.value) == r.value
  {
    match reply
    case None => Failure(Transport)
    case Some(HttpReply(status, body)) =>
      if IsErrorStatus(status) then Failure(HttpStatus(status))
      else if body.None? then Failure(MalformedBody)
      else ParseReply(body.value)
  }

  /**
   * `deepseek_chat(messages, max_tokens, model)`: fails with `NotConfigured`
   * before anything else when the provider is not configured, then with
   * `RequestsUnavailable` when the HTTP library is missing; otherwise sends
   * `BuildRequest` once through `post` and interprets the reply.
   */
  function Chat(settings: ProviderSettings, hasRequests: bool, msgs: seq<Message>,
                maxTokens: Option<int>, model: string, post: Transport): (r: Result<string, ChatError>)
    ensures !Configured(settings) ==> r == Failure(NotConfigured)
    ensures Configured(settings) && !hasRequests ==> r == Failure(RequestsUnavailable)
    ensures r.Success? ==> r.value != [] && Strip(r.value) == r.value
  {
    if !Configured(settings) then Failure(NotConfigured)
    else if !hasRequests then Failure(RequestsUnavailable)
    else Interpret(post(BuildRequest(settings.apiKey.value, msgs, maxTokens, model)))
  }

  /** Without a configured provider the outcome is the same whatever the transport would do. */
  lemma ChatUnconfiguredSendsNothing(settings: ProviderSettings, hasRequests: bool, msgs: seq<Message>,
                                     maxTokens: Option<int>, model: string, post1: Transport, post2: Transport)
    requires !Configured(settings)
    ensures Chat(settings, hasRequests, msgs, maxTokens, model, post1)
         == Chat(settings, hasRequests, msgs, maxTokens, model, post2)
         == Failure(NotConfigured)
  {
  }

  /**
   * A configured call sends exactly one request: its body holds the mapped
   * turns and a token cap exactly when one was given, and two transports that
   * answer that request alike give the same outcome.
   */
  lemma ChatSendsOneRequest(settings: ProviderSettings, msgs: seq<Message>, maxTokens: Option<int>,
                            model: string, post1: Transport, post2: Transport)
    requires Configured(settings)
    requires post1(BuildRequest(settings.apiKey.value, msgs, maxTokens, model))
          == post2(BuildRequest(settings.apiKey.value, msgs, maxTokens, model))
    ensures Chat(settings, true, msgs, maxTokens, model, post1) == Chat(settings, true, msgs, maxTokens, model, post2)
    ensures var req := BuildRequest(settings.apiKey.value, msgs, maxTokens, model);
            && req.key == settings.apiKey.value
            && req.payload.contents == BuildContents(msgs)
            && (req.payload.maxOutputTokens.Some? <==> maxTokens.Some?)
            && (maxTokens.Some? ==> req.payload.maxOutputTokens.value == maxTokens.value)
            && req.timeoutSeconds == 30
  {
  }

  /** A successful reply came from a non-error status and is the parsed first candidate. */
  lemma ChatSuccessIsParsedReply(settings: ProviderSettings, hasRequests: bool, msgs: seq<Message>,
                                 maxTokens: Option<int>, model: string, post: Transport)
    requires Chat(settings, hasRequests, msgs, maxTokens, model, post).Success?
    ensures var reply := post(BuildRequest(settings.apiKey.value, msgs, maxTokens, model));
            && reply.Some? && !IsErrorStatus(reply.value.status) && reply.value.body.Some?
            && ParseReply(reply.value.body.value) == Chat(settings, hasRequests, msgs, maxTokens, model, post)
  {
  }

  /**
   * A configured call whose request is answered with a non-error status and
   * a JSON object returns exactly what `ParseReply` makes of that object.
   */
  lemma ChatGoodReply(settings: ProviderSettings, msgs: seq<Message>, maxTokens: Option<int>,
                      model: string, post: Transport, status: int, body: GenerateResponse)
    requires Configured(settings) && !IsErrorStatus(status)
    requires post(BuildRequest(settings.apiKey.value, msgs, maxTokens, model)) == Some(HttpReply(status, Some(body)))
    ensures Chat(settings, true, msgs, maxTokens, model, post) == ParseReply(body)
  {
  }

  /** A configured call whose request fails in transport or with an error status raises that failure. */
  lemma ChatFailedRequest(settings: ProviderSettings, msgs: seq<Message>, maxTokens: Option<int>,
                          model: string, post: Transport)
    requires Configured(settings)
    ensures var reply := post(BuildRequest(settings.apiKey.value, msgs, maxTokens, model));
            && (reply.None? ==> Chat(settings, true, msgs, maxTokens, model, post) == Failure(Transport))
            && (reply.Some? && IsErrorStatus(reply.value.status) ==>
                  Chat(settings, true, msgs, maxTokens, model, post) == Failure(HttpStatus(reply.value.status)))
  {
  }

  /** A reply whose only part has the text "Olá" yields "Olá". */
  lemma ParseReplyExample()
    ensures ParseReply(GenerateResponse(Some([Candidate(Some(CandidateContent(Some([DictPart(Some("Olá"))]))))])))
         == Success("Olá")
  {
    var parts := [DictPart(Some("Olá"))];
    var c := Candidate(Some(CandidateContent(Some(parts))));
    assert PartsOf(c) == parts;
    assert parts[1..] == [];
    assert JoinTexts(parts) == "Olá" + "";
    StripNoop("Olá");
    assert Strip(JoinTexts(PartsOf(c))) == "Olá";
  }
}

=== FILE: password.dfy ===
/**
 * The `salt:digest` password records of `_hash_password` and
 * `_verify_password`. SHA-256 (hex digest) is the uninterpreted `sha`
 * parameter; the random salt is a parameter too.
 */
module Password {
  import opened Text

  const Separator := ':'

  /** `_hash_password(password, salt)`: the salt, a colon and the digest of salt + password. */
  function HashPassword(password: string, salt: string, sha: string -> string): (stored: string)
    ensures Count(stored, Separator) == Count(salt, Separator) + 1 + Count(sha(salt + password), Separator)
  {
    var digest := sha(salt + password);
    CountAppend(salt, [Separator] + digest, Separator);
    CountAppend([Separator], digest, Separator);
    assert Count([Separator], Separator) == 1;
    assert salt + [Separator] + digest == salt + ([Separator] + digest);
    salt + [Separator] + digest
  }

  /**
   * `_verify_password`: the record must split on ':' into exactly two pieces
   * (otherwise the unpacking raises and the answer is false), and the digest
   * of salt + password must equal the second piece.
   */
  function VerifyPassword(stored: string, password: string, sha: string -> string): (ok: bool)
    ensures Count(stored, Separator) != 1 ==> !ok
  {
    var pieces := Split(stored, Separator);
    |pieces| == 2 && sha(pieces[0] + password) == pieces[1]
  }

  lemma {:induction false} CountAppend(a: string, b: string, c: char)
    ensures Count(a + b, c) == Count(a, c) + Count(b, c)
  {
    if a == [] {
      assert a + b == b;
    } else {
      assert (a + b)[1..] == a[1..] + b;
      CountAppend(a[1..], b, c);
    }
  }

  /** A record made with a colon-free salt verifies against the same password. */
  lemma HashThenVerify(password: string, salt: string, sha: string -> string)
    requires Separator !in salt && Separator !in sha(salt + password)
    ensures VerifyPassword(HashPassword(password, salt, sha), password, sha)
  {
    var digest := sha(salt + password);
    SplitJoin([salt, digest], Separator);
    assert Join([salt, digest], Separator) == salt + [Separator] + digest by {
      assert Join([digest], Separator) == digest;
    }
  }

  /**
   * A record that verifies is exactly the record hashing would produce from
   * its own salt: there is no other way to pass the check.
   */
  lemma VerifyMeansHashed(stored: string, password: string, sha: string -> string)
    requires VerifyPassword(stored, password, sha)
    ensures var salt := Split(stored, Separator)[0];
            Separator !in salt && stored == HashPassword(password, salt, sha)
  {
    var pieces := Split(stored, Separator);
    JoinSplit(stored, Separator);
    assert Join(pieces, Separator) == pieces[0] + [Separator] + Join(pieces[1..], Separator);
    assert Join(pieces[1..], Separator) == pieces[1];
  }

  /** A record with a second colon never verifies, whatever the password. */
  lemma ExtraColonRejected(a: string, b: string, c: string, password: string, sha: string -> string)
    ensures !VerifyPassword(a + [Separator] + b + [Separator] + c, password, sha)
  {
    var tail := [Separator] + c;
    var mid := [Separator] + (b + tail);
    var stored := a + mid;
    assert stored == a + [Separator] + b + [Separator] + c;
    assert Count([Separator], Separator) == 1;
    CountAppend([Separator], c, Separator);
    CountAppend(b, tail, Separator);
    CountAppend([Separator], b + tail, Separator);
    CountAppend(a, mid, Separator);
    assert Count(stored, Separator) >= 2;
  }
}

=== FILE: phone.dfy ===
/**
 * `_normalize_phone` inside `send_whatsapp_text`: keep the digits of a phone
 * number and make sure it carries Brazil's country code 55.
 */
module Phone {
  import opened Wrappers
  import opened Text

  const CountryCode := "55"

  /** `re.sub(r"\D+", "", s)`: the digits of `s`, in order. */
  function Digits(s: string): (r: string)
    ensures |r| <= |s|
    ensures AllDigits(r)
    ensures r == [] <==> forall i :: 0 <= i < |s| ==> !IsDigit(s[i])
  {
    if s == [] then []
    else
      var rest := Digits(s[1..]);
      assert forall i :: 1 <= i < |s| ==> s[i] == s[1..][i - 1];
      (if IsDigit(s[0]) then [s[0]] else []) + rest
  }

  /** One character contributes itself if it is a digit, and nothing otherwise. */
  lemma DigitsOfChar(c: char)
    ensures Digits([c]) == (if IsDigit(c) then [c] else [])
  {
    assert [c][1..] == [];
  }

  /** The digits of a concatenation are the digits of each part, in order. */
  lemma {:induction false} DigitsAppend(a: string, b: string)
    ensures Digits(a + b) == Digits(a) + Digits(b)
  {
    if a == [] {
      assert a + b == b;
    } else {
      assert (a + b)[0] == a[0];
      assert (a + b)[1..] == a[1..] + b;
      DigitsAppend(a[1..], b);
      var head := if IsDigit(a[0]) then [a[0]] else [];
      calc {
        Digits(a + b);
        head + Digits(a[1..] + b);
        head + (Digits(a[1..]) + Digits(b));
        (head + Digits(a[1..])) + Digits(b);
      }
    }
  }

  /** A string of digits is its own digit string. */
  lemma {:induction false} DigitsOfDigits(s: string)
    requires AllDigits(s)
    ensures Digits(s) == s
  {
    if s != [] {
      DigitsOfDigits(s[1..]);
      assert [s[0]] + s[1..] == s;
    }
  }

  /** `str(p or "")`: a missing phone reads as the empty string. */
  function Raw(p: Option<string>): string {
    p.GetOr("")
  }

  /** `_normalize_phone`. */
  function NormalizePhone(p: Option<string>): (r: string)
    ensures r == [] <==> Digits(Raw(p)) == []
    ensures r != [] ==> AllDigits(r) && StartsWith(r, CountryCode)
    ensures |r| == |Digits(Raw(p))| || |r| == |Digits(Raw(p))| + 2
    ensures |Digits(Raw(p))| <= |r| && r[|r| - |Digits(Raw(p))|..] == Digits(Raw(p))
  {
    var digits := Digits(Raw(p));
    if digits == [] then ""
    else if StartsWith(digits, "55") && |digits| >= 12 then digits
    else if (|digits| == 10 || |digits| == 11) && !StartsWith(digits, "55") then "55" + digits
    else if !StartsWith(digits, "55") then "55" + digits
    else digits
  }

  /**
   * The branches collapse to one rule: a number already starting with 55 is
   * kept as it is, any other non-empty one gets 55 in front.
   */
  lemma NormalizePhoneRule(p: Option<string>)
    ensures var digits := Digits(Raw(p));
            NormalizePhone(p) == (if digits == [] then ""
                                  else if StartsWith(digits, "55") then digits
                                  else "55" + digits)
  {
  }

  /** A 10- or 11-digit national number without 55 gets the country code prepended. */
  lemma NormalizeNationalNumber(p: string)
    requires var d := Digits(p); (|d| == 10 || |d| == 11) && !StartsWith(d, "55")
    ensures NormalizePhone(Some(p)) == "55" + Digits(p)
  {
  }

  /** A number whose digits already start with 55 comes back as just those digits. */
  lemma NormalizeKeepsCountryCode(p: string)
    requires StartsWith(Digits(p), "55")
    ensures NormalizePhone(Some(p)) == Digits(p)
  {
  }

  /** Normalising twice is normalising once. */
  lemma NormalizePhoneIdempotent(p: Option<string>)
    ensures NormalizePhone(Some(NormalizePhone(p))) == NormalizePhone(p)
  {
    var r := NormalizePhone(p);
    DigitsOfDigits(r);
  }
}

=== FILE: pyint.dfy ===
/**
 * Python's `int(s)` on a string and `str(n)` on an integer, in base 10:
 * surrounding whitespace, an optional sign, ASCII digits with single
 * underscores between them.
 */
module PyInt {
  import opened Wrappers
  import opened Text

  function DigitValue(c: char): nat
    requires IsDigit(c)
  {
    c as int - '0' as int
  }

  /** The number a digit string denotes. */
  function Value(s: string): nat
    requires AllDigits(s)
  {
    if s == [] then 0 else Value(s[..|s| - 1]) * 10 + DigitValue(s[|s| - 1])
  }

  /** A digit body `int()` accepts: digits, each underscore between two digits. */
  predicate DigitGroups(s: string) {
    && |s| > 0 && IsDigit(s[0]) && IsDigit(s[|s| - 1])
    && (forall i :: 0 <= i < |s| ==> IsDigit(s[i]) || s[i] == '_')
    && (forall i :: 0 <= i < |s| - 1 ==> s[i] == '_' ==> IsDigit(s[i + 1]))
  }

  /**
   * The whitespace `int()` skips around the number: what `str.isspace()`
   * accepts, except the ASCII separators U+001C..U+001F. CPython turns
   * only non-ASCII whitespace into spaces and then skips the six ASCII
   * blanks, so those four separators stay in the text and are rejected.
   */
  predicate IntSpace(c: char) {
    var n := c as int;
    || 0x09 <= n <= 0x0D || n == 0x20 || n == 0x85 || n == 0xA0
    || n == 0x1680 || 0x2000 <= n <= 0x200A || n == 0x2028 || n == 0x2029
    || n == 0x202F || n == 0x205F || n == 0x3000
  }

  /** The whitespace `int()` skips is `str.isspace()` whitespace less the four separators. */
  lemma IntSpaceIsSpace(c: char)
    ensures IntSpace(c) <==> IsSpace(c) && !(0x1C <= c as int <= 0x1F)
  {
  }

  /** Removes the leading whitespace `int()` skips. */
  function IntTrimStart(s: string): (r: string)
    ensures |r| <= |s| && r == s[|s| - |r|..]
    ensures r == [] || !IntSpace(r[0])
    ensures forall i :: 0 <= i < |s| - |r| ==> IntSpace(s[i])
  {
    if |s| > 0 && IntSpace(s[0]) then IntTrimStart(s[1..]) else s
  }

  /** Removes the trailing whitespace `int()` skips. */
  function IntTrimEnd(s: string): (r: string)
    ensures |r| <= |s| && r == s[..|r|]
    ensures r == [] || !IntSpace(r[|r| - 1])
    ensures forall i :: |r| <= i < |s| ==> IntSpace(s[i])
  {
    if |s| > 0 && IntSpace(s[|s| - 1]) then IntTrimEnd(s[..|s| - 1]) else s
  }

  /**
   * The text `int()` reads the number from: the input without the
   * surrounding whitespace it skips, and only that.
   */
  function IntStrip(s: string): (r: string)
    ensures |r| <= |s|
    ensures r == [] || (!IntSpace(r[0]) && !IntSpace(r[|r| - 1]))
    ensures exists i :: SurroundedByIntSpace(s, r, i)
  {
    IntStripEnds(s);
    IntStripSurrounded(s);
    IntTrimEnd(IntTrimStart(s))
  }

  /** `r` occurs in `s` at `i`, with only skipped whitespace before and after it. */
  predicate SurroundedByIntSpace(s: string, r: string, i: int) {
    && OccursAt(s, r, i)
    && (forall k :: 0 <= k < i ==> IntSpace(s[k]))
    && (forall k :: i + |r| <= k < |s| ==> IntSpace(s[k]))
  }

  /** Trimming both ends leaves no skipped whitespace at either end. */
  lemma IntStripEnds(s: string)
    ensures var r := IntTrimEnd(IntTrimStart(s));
            r == [] || (!IntSpace(r[0]) && !IntSpace(r[|r| - 1]))
  {
    var t := IntTrimStart(s);
    var r := IntTrimEnd(t);
    if r != [] {
      assert r[0] == t[0];
    }
  }

  /** Trimming both ends keeps the middle of the input, with only skipped whitespace around it. */
  lemma IntStripSurrounded(s: string)
    ensures SurroundedByIntSpace(s, IntTrimEnd(IntTrimStart(s)), |s| - |IntTrimStart(s)|)
  {
    var t := IntTrimStart(s);
    var r := IntTrimEnd(t);
    var i := |s| - |t|;
    IntStripMiddle(s, t, r, i);
  }

  /** The pieces of the proof of `IntStripSurrounded`, with the trims named. */
  lemma IntStripMiddle(s: string, t: string, r: string, i: int)
    requires 0 <= i <= |s| && t == s[i..] && |r| <= |t| && r == t[..|r|]
    requires forall k :: 0 <= k < i ==> IntSpace(s[k])
    requires forall k :: |r| <= k < |t| ==> IntSpace(t[k])
    ensures SurroundedByIntSpace(s, r, i)
  {
    assert s[i..i + |r|] == r;
    forall k | i + |r| <= k < |s| ensures IntSpace(s[k]) {
      assert s[k] == t[k - i];
    }
  }

  /** Text with no skipped whitespace at either end is read as it stands. */
  lemma IntStripNoop(s: string)
    requires s == [] || (!IntSpace(s[0]) && !IntSpace(s[|s| - 1]))
    ensures IntStrip(s) == s
  {
  }

  /** The text after one leading sign, if there is one. */
  function Unsigned(t: string): string {
    if t != [] && (t[0] == '-' || t[0] == '+') then t[1..] else t
  }

  /** `int()` on text already stripped. */
  function ParseStripped(t: string): (r: Option<int>)
    ensures r.Some? <==> DigitGroups(Unsigned(t))
    ensures r.Some? ==> t != []
    ensures r.Some? && r.value < 0 ==> t[0] == '-'
    ensures r.Some? && t[0] == '-' ==> r.value <= 0
    ensures t != [] && AllDigits(t) ==> r == Some(Value(t))
    ensures r.Some? ==> AllDigits(RemoveChar(Unsigned(t), '_'))
    ensures r.Some? ==> r.value == (if t[0] == '-' then -1 else 1) * Value(RemoveChar(Unsigned(t), '_'))
  {
    var body := Unsigned(t);
    if !DigitGroups(body) then None
    else
      var digits := RemoveChar(body, '_');
      assert AllDigits(digits) by {
        forall i | 0 <= i < |digits| ensures IsDigit(digits[i]) {
          assert digits[i] in body;
        }
      }
      var v: int := Value(digits);
      Some(if t[0] == '-' then -v else v)
  }

  /**
   * `int(s)`; `None` is the `ValueError`. Exactly the texts that are an
   * optional sign and a digit group once the skipped whitespace is removed
   * are accepted; a leading '-' negates.
   */
  function ParseInt(s: string): (r: Option<int>)
    ensures r.Some? <==> DigitGroups(Unsigned(IntStrip(s)))
    ensures r.Some? ==> IntStrip(s) != []
    ensures r.Some? && r.value < 0 ==> IntStrip(s)[0] == '-'
    ensures r.Some? && IntStrip(s)[0] == '-' ==> r.value <= 0
    ensures IntStrip(s) != [] && AllDigits(IntStrip(s)) ==> r == Some(Value(IntStrip(s)))
    ensures r.Some? ==> AllDigits(RemoveChar(Unsigned(IntStrip(s)), '_'))
    ensures r.Some? ==> r.value
                        == (if IntStrip(s)[0] == '-' then -1 else 1) * Value(RemoveChar(Unsigned(IntStrip(s)), '_'))
  {
    ParseStripped(IntStrip(s))
  }

  /** `strip()` removes an ASCII separator in front of the digits. */
  lemma SeparatorStrips(d: string)
    requires d != [] && AllDigits(d)
    ensures Strip("\U{1C}" + d) == d
  {
    assert !IsSpace(d[0]) && !IsSpace(d[|d| - 1]);
    assert AllSpace("\U{1C}") && AllSpace("");
    StripPadded("\U{1C}", d, "");
    assert "\U{1C}" + d + "" == "\U{1C}" + d;
  }

  /**
   * `int()` does not skip that separator: the text is rejected, although
   * `strip()` would remove the separator (`SeparatorStrips`).
   */
  lemma SeparatorIsRejected(d: string)
    requires d != [] && AllDigits(d)
    ensures ParseInt("\U{1C}" + d).None?
  {
    var s := "\U{1C}" + d;
    assert s[0] == '\U{1C}' && s[|s| - 1] == d[|d| - 1];
    assert !IntSpace(s[0]) && !IntSpace(s[|s| - 1]);
    IntStripNoop(s);
    assert Unsigned(s) == s;
    assert !DigitGroups(s) by {
      assert !IsDigit(s[0]);
    }
    assert ParseInt(s) == ParseStripped(s);
  }

  /** Blanks and line breaks around the digits are skipped. */
  lemma ParseIntSkipsBlanks(d: string)
    requires d != [] && AllDigits(d)
    ensures ParseInt(" " + d + "\n") == Some(Value(d))
  {
    var s := " " + d + "\n";
    assert IntSpace(s[0]) && IntSpace(s[|s| - 1]);
    assert s[1..] == d + "\n";
    assert (d + "\n")[..|d|] == d;
    assert IntTrimStart(s) == d + "\n";
    assert IntTrimEnd(d + "\n") == d by {
      assert IntTrimEnd(d + "\n") == IntTrimEnd(d);
      IntStripNoop(d);
      assert IntTrimEnd(d) == d;
    }
  }

  /** Two digit runs joined by one underscore form valid digit groups. */
  lemma UnderscoreJoinIsGrouped(a: string, b: string)
    requires a != [] && AllDigits(a) && b != [] && AllDigits(b)
    ensures DigitGroups(a + "_" + b)
  {
    var t := a + "_" + b;
    assert t[0] == a[0];
    assert t[|t| - 1] == b[|b| - 1];
    forall i | 0 <= i < |t| ensures IsDigit(t[i]) || t[i] == '_' {
      if i < |a| { assert t[i] == a[i]; } else if i > |a| { assert t[i] == b[i - |a| - 1]; }
    }
    forall i | 0 <= i < |t| - 1 ensures t[i] == '_' ==> IsDigit(t[i + 1]) {
      if i < |a| { assert t[i] == a[i]; } else if i > |a| { assert t[i] == b[i - |a| - 1]; }
      else { assert t[i + 1] == b[0]; }
    }
  }

  /** A digit string holds no underscore. */
  lemma NoUnderscore(a: string)
    requires AllDigits(a)
    ensures '_' !in a
  {
    forall i | 0 <= i < |a| ensures a[i] != '_' { assert IsDigit(a[i]); }
  }

  /** The lone underscore is all dropped. */
  lemma DropLoneUnderscore()
    ensures RemoveChar("_", '_') == []
  {
    var u := "_";
    assert u[1..] == [];
  }

  /** Dropping the underscore after a digit run leaves the run. */
  lemma DropTrailingUnderscore(a: string)
    requires AllDigits(a)
    ensures RemoveChar(a + "_", '_') == a
  {
    NoUnderscore(a);
    RemoveCharAppend(a, "_", '_');
    DropLoneUnderscore();
    assert a + [] == a;
  }

  /** Dropping the underscore from two joined digit runs leaves the runs side by side. */
  lemma UnderscoreJoinDigits(a: string, b: string)
    requires AllDigits(a) && AllDigits(b)
    ensures RemoveChar(a + "_" + b, '_') == a + b
  {
    NoUnderscore(b);
    RemoveCharAppend(a + "_", b, '_');
    DropTrailingUnderscore(a);
  }

  /** Two digit strings side by side are a digit string. */
  lemma AllDigitsAppend(a: string, b: string)
    requires AllDigits(a) && AllDigits(b)
    ensures AllDigits(a + b)
  {
    forall i | 0 <= i < |a + b| ensures IsDigit((a + b)[i]) {
      if i < |a| { assert (a + b)[i] == a[i]; } else { assert (a + b)[i] == b[i - |a|]; }
    }
  }

  /** The underscores between digit groups do not count: `int("1_0")` is `int("10")`. */
  lemma ParseStrippedUnderscore(a: string, b: string)
    requires a != [] && AllDigits(a) && b != [] && AllDigits(b)
    ensures ParseStripped(a + "_" + b) == ParseStripped(a + b) == Some(Value(a + b))
  {
    var t := a + "_" + b;
    assert t[0] == a[0] && IsDigit(t[0]);
    assert Unsigned(t) == t;
    UnderscoreJoinIsGrouped(a, b);
    UnderscoreJoinDigits(a, b);
    AllDigitsAppend(a, b);
    var r := ParseStripped(t);
    assert r.Some?;
    assert r.value == Value(a + b);
  }

  /** Text that starts and ends with a digit has no whitespace for `int()` to skip. */
  lemma DigitEndsAreNotStripped(t: string)
    requires t != [] && IsDigit(t[0]) && IsDigit(t[|t| - 1])
    ensures ParseInt(t) == ParseStripped(t)
  {
    assert !IntSpace(t[0]) && !IntSpace(t[|t| - 1]);
    IntStripNoop(t);
    assert IntStrip(t) == t;
  }

  /** `int()` reads digits split by an underscore as the digits joined, as in "0_7" for 7. */
  lemma ParseIntUnderscore(a: string, b: string)
    requires a != [] && AllDigits(a) && b != [] && AllDigits(b)
    ensures ParseInt(a + "_" + b) == ParseInt(a + b) == Some(Value(a + b))
  {
    ParseStrippedUnderscore(a, b);
    var t, u := a + "_" + b, a + b;
    assert t[0] == a[0] && t[|t| - 1] == b[|b| - 1];
    assert u[0] == a[0] && u[|u| - 1] == b[|b| - 1];
    assert IsDigit(a[0]) && IsDigit(b[|b| - 1]);
    DigitEndsAreNotStripped(t);
    DigitEndsAreNotStripped(u);
  }

  /** "07" denotes 7. */
  lemma ValueOfZeroSeven()
    ensures AllDigits("07") && Value("07") == 7
  {
    assert "07"[..1] == "0" && "0"[..0] == [];
  }

  /** "0_7" is read as 7. */
  lemma ParseIntGroupedSeven()
    ensures ParseInt("0_7") == Some(7)
  {
    var a, b := "0", "7";
    assert a + "_" + b == "0_7" && a + b == "07";
    ParseIntUnderscore(a, b);
    ValueOfZeroSeven();
  }

  /** A signed digit string has its sign and digits as they stand. */
  lemma SignedStrips(sign: char, d: string)
    requires sign == '-' || sign == '+'
    requires d != [] && AllDigits(d)
    ensures IntStrip([sign] + d) == [sign] + d
    ensures Unsigned([sign] + d) == d
  {
    var t := [sign] + d;
    assert t[1..] == d;
    assert t[|t| - 1] == d[|d| - 1] && IsDigit(d[|d| - 1]);
    assert !IntSpace(t[0]) && !IntSpace(t[|t| - 1]);
    IntStripNoop(t);
  }

  /** A sign in front of a digit string: '-' negates its value, '+' keeps it. */
  lemma ParseIntSigned(d: string)
    requires d != [] && AllDigits(d)
    ensures ParseInt("-" + d) == Some(-(Value(d) as int))
    ensures ParseInt("+" + d) == Some(Value(d))
  {
    SignedStrips('-', d);
    SignedStrips('+', d);
    assert '_' !in d;
    assert RemoveChar(d, '_') == d;
  }

  /** Text with any character other than digits, underscores, one leading sign and surrounding whitespace is rejected. */
  lemma ParseIntRejectsOtherChars(s: string, k: int)
    requires 0 <= k < |Unsigned(IntStrip(s))|
    requires !IsDigit(Unsigned(IntStrip(s))[k]) && Unsigned(IntStrip(s))[k] != '_'
    ensures ParseInt(s).None?
  {
  }

  /** The digit character of `d`. */
  function DigitChar(d: nat): (c: char)
    requires d < 10
    ensures IsDigit(c) && DigitValue(c) == d
  {
    ('0' as int + d) as char
  }

  /** `str(n)` for a natural number: no sign, no leading zero. */
  function NatToString(n: nat): (s: string)
    ensures s != [] && AllDigits(s)
    ensures Value(s) == n
    ensures |s| > 1 ==> s[0] != '0'
  {
    if n < 10 then [DigitChar(n)]
    else
      var front := NatToString(n / 10);
      var s := front + [DigitChar(n % 10)];
      assert s[..|s| - 1] == front;
      s
  }

  /** `str(n)`. */
  function IntToString(n: int): string {
    if n < 0 then "-" + NatToString(-n) else NatToString(n)
  }

  /** `int` undoes `str`. */
  lemma ParseIntToString(n: int)
    ensures ParseInt(IntToString(n)) == Some(n)
  {
    var s := IntToString(n);
    var digits := NatToString(if n < 0 then -n else n);
    assert !IntSpace(s[0]) && !IntSpace(s[|s| - 1]);
    IntStripNoop(s);
    var body := if s[0] == '-' || s[0] == '+' then s[1..] else s;
    assert body == digits;
    assert '_' !in digits;
  }
}

=== FILE: sheets.dfy ===
/**
 * The spreadsheet logic of `GoogleService` once the rows are fetched:
 * the user lookup of `check_user_exists` and the daily report of
 * `get_morning_report`. The Sheets API call is replaced by its outcome:
 * the rows, or the text of the `HttpError` it raised.
 */
module Sheets {
  import opened Wrappers
  import opened Text
  import opened Dates

  /** One spreadsheet row: its cells as strings, trailing empty cells omitted. */
  type Row = seq<string>

  /** The fetched rows, or the `HttpError`'s text. */
  type Fetched = Result<seq<Row>, string>

  /** Cell `j` of row `i` holds the identifier, ignoring case. */
  predicate CellMatches(rows: seq<Row>, i: int, j: int, identifier: string) {
    0 <= i < |rows| && 0 <= j < |rows[i]| && Contains(Lower(rows[i][j]), Lower(identifier))
  }

  /**
   * `check_user_exists`: true exactly when credentials exist, the fetch
   * succeeded and some cell of some row contains the identifier,
   * case-insensitively.
   */
  method CheckUserExists(hasCreds: bool, fetched: Fetched, identifier: string) returns (found: bool)
    ensures found <==> hasCreds && fetched.Success? &&
                       exists i, j :: CellMatches(fetched.value, i, j, identifier)
  {
    if !hasCreds || fetched.Failure? {
      return false;
    }
    var rows := fetched.value;
    if |rows| == 0 {
      return false;
    }
    var needle := Lower(identifier);
    var i := 0;
    while i < |rows|
      invariant 0 <= i <= |rows|
      invariant forall i', j :: 0 <= i' < i ==> !CellMatches(rows, i', j, identifier)
    {
      var j := 0;
      while j < |rows[i]|
        invariant 0 <= j <= |rows[i]|
        invariant forall i', j' :: 0 <= i' < i ==> !CellMatches(rows, i', j', identifier)
        invariant forall j' :: 0 <= j' < j ==> !CellMatches(rows, i, j', identifier)
      {
        FindIsContains(Lower(rows[i][j]), needle);
        if Find(Lower(rows[i][j]), needle, 0) {
          assert CellMatches(rows, i, j, identifier);
          return true;
        }
        j := j + 1;
      }
      i := i + 1;
    }
    return false;
  }

  /** An empty identifier is found as soon as any row has a cell. */
  lemma EmptyIdentifierMatchesAnyCell(rows: seq<Row>, i: int)
    requires 0 <= i < |rows| && |rows[i]| > 0
    ensures CellMatches(rows, i, 0, "")
  {
    assert OccursAt(Lower(rows[i][0]), Lower(""), 0);
  }

  // ---------------------------------------------------------------- report

  const NoAppointments := "Nenhum agendamento encontrado para hoje."
  const AuthError := "Erro na autenticação"
  const ReportErrorPrefix := "Erro ao gerar relatório: "

  /** The report's first line and the blank line after it. */
  function Header(today: string): string {
    "*Relatório Vizô - " + today + "*\n\n"
  }

  /** The report line of one appointment row: name, column D, then column C in parentheses. */
  function Line(task: Row): string
    requires |task| >= 4
  {
    "📍 " + task[1] + " - " + task[3] + " (" + task[2] + ")\n"
  }

  /** The rows whose first cell starts with `today`, in sheet order. */
  function TodayRows(rows: seq<Row>, today: string): (r: seq<Row>)
    requires forall k :: 0 <= k < |rows| ==> |rows[k]| > 0
    ensures |r| <= |rows|
    ensures forall t :: t in r <==> t in rows && StartsWith(t[0], today)
  {
    if rows == [] then []
    else
      var rest := TodayRows(rows[1..], today);
      assert forall t :: t in rows <==> t == rows[0] || t in rows[1..];
      (if StartsWith(rows[0][0], today) then [rows[0]] else []) + rest
  }

  /** Every row has the four cells a report line reads. */
  predicate FourCells(tasks: seq<Row>) {
    forall k :: 0 <= k < |tasks| ==> |tasks[k]| >= 4
  }

  /** The report lines of the selected rows, one per row, in order. */
  function Body(tasks: seq<Row>): string
    requires FourCells(tasks)
  {
    if tasks == [] then "" else Line(tasks[0]) + Body(tasks[1..])
  }

  /** Why `get_morning_report` raises: some row lacks a cell it reads. */
  datatype ReportError = IndexError

  /** Every row has a first cell, and every row of the day has at least four cells. */
  predicate WellShaped(rows: seq<Row>, today: string) {
    && (forall k :: 0 <= k < |rows| ==> |rows[k]| > 0)
    && (forall k :: 0 <= k < |rows| && StartsWith(rows[k][0], today) ==> |rows[k]| >= 4)
  }

  /**
   * `get_morning_report` on `today`, a valid date: a fixed text without
   * credentials or without rows, the error text on an `HttpError`, the
   * `IndexError` the source lets escape on a short row, and otherwise the
   * header followed by one line per row of the day.
   */
  function MorningReport(hasCreds: bool, fetched: Fetched, y: int, m: int, d: int): (r: Result<string, ReportError>)
    requires ValidDate(y, m, d)
    ensures !hasCreds ==> r == Success(AuthError)
    ensures hasCreds && fetched.Failure? ==> r == Success(ReportErrorPrefix + fetched.error)
    ensures hasCreds && fetched.Success? && fetched.value == [] ==> r == Success(NoAppointments)
    ensures r.Failure? <==>
              hasCreds && fetched.Success? && !WellShaped(fetched.value, FormatDate(y, m, d))
    ensures hasCreds && fetched.Success? && fetched.value != [] && r.Success? ==>
              StartsWith(r.value, Header(FormatDate(y, m, d)))
    ensures hasCreds && fetched.Success? && WellShaped(fetched.value, FormatDate(y, m, d)) ==>
              FourCells(TodayRows(fetched.value, FormatDate(y, m, d)))
    ensures hasCreds && fetched.Success? && fetched.value != [] && WellShaped(fetched.value, FormatDate(y, m, d)) ==>
              r == Success(Header(FormatDate(y, m, d)) + Body(TodayRows(fetched.value, FormatDate(y, m, d))))
  {
    if !hasCreds then Success(AuthError)
    else if fetched.Failure? then Success(ReportErrorPrefix + fetched.error)
    else
      var rows := fetched.value;
      var today := FormatDate(y, m, d);
      if rows == [] then Success(NoAppointments)
      else if !WellShaped(rows, today) then Failure(IndexError)
      else
        var tasks := TodayRows(rows, today);
        TodayRowsHaveFourCells(rows, today);
        var text := Header(today) + Body(tasks);
        assert text[..|Header(today)|] == Header(today);
        Success(text)
  }

  /** In a well-shaped sheet every selected row has the four cells a report line reads. */
  lemma TodayRowsHaveFourCells(rows: seq<Row>, today: string)
    requires WellShaped(rows, today)
    ensures FourCells(TodayRows(rows, today))
  {
    var tasks := TodayRows(rows, today);
    forall k | 0 <= k < |tasks| ensures |tasks[k]| >= 4 {
      assert tasks[k] in rows;
    }
  }

  /** Selection keeps sheet order: selecting from a concatenation concatenates the selections. */
  lemma {:induction false} TodayRowsAppend(a: seq<Row>, b: seq<Row>, today: string)
    requires forall k :: 0 <= k < |a| ==> |a[k]| > 0
    requires forall k :: 0 <= k < |b| ==> |b[k]| > 0
    ensures TodayRows(a + b, today) == TodayRows(a, today) + TodayRows(b, today)
  {
    if a == [] {
      assert a + b == b;
    } else {
      assert (a + b)[0] == a[0];
      assert (a + b)[1..] == a[1..] + b;
      TodayRowsAppend(a[1..], b, today);
      var head := if StartsWith(a[0][0], today) then [a[0]] else [];
      calc {
        TodayRows(a + b, today);
        head + TodayRows(a[1..] + b, today);
        head + (TodayRows(a[1..], today) + TodayRows(b, today));
        (head + TodayRows(a[1..], today)) + TodayRows(b, today);
      }
    }
  }

  /** The body of two runs of rows is the body of the first followed by the body of the second. */
  lemma {:induction false} BodyAppend(a: seq<Row>, b: seq<Row>)
    requires FourCells(a) && FourCells(b)
    ensures Body(a + b) == Body(a) + Body(b)
  {
    if a == [] {
      assert a + b == b;
    } else {
      assert (a + b)[0] == a[0];
      assert (a + b)[1..] == a[1..] + b;
      BodyAppend(a[1..], b);
    }
  }

  /** Two well-shaped parts of a sheet make a well-shaped sheet. */
  lemma WellShapedAppend(a: seq<Row>, b: seq<Row>, today: string)
    requires WellShaped(a, today) && WellShaped(b, today)
    ensures WellShaped(a + b, today)
  {
    forall k | 0 <= k < |a + b|
      ensures (a + b)[k] == (if k < |a| then a[k] else b[k - |a|])
    {
    }
  }

  /**
   * The report of a sheet split in two: one header, then the lines of the
   * day from the first part, then those from the second.
   */
  lemma DayLinesAppend(a: seq<Row>, b: seq<Row>, y: int, m: int, d: int)
    requires ValidDate(y, m, d)
    requires a + b != [] && WellShaped(a, FormatDate(y, m, d)) && WellShaped(b, FormatDate(y, m, d))
    ensures FourCells(TodayRows(a, FormatDate(y, m, d))) && FourCells(TodayRows(b, FormatDate(y, m, d)))
    ensures MorningReport(true, Success(a + b), y, m, d)
         == Success(Header(FormatDate(y, m, d)) + Body(TodayRows(a, FormatDate(y, m, d)))
                                                + Body(TodayRows(b, FormatDate(y, m, d))))
  {
    var today := FormatDate(y, m, d);
    TodayRowsHaveFourCells(a, today);
    TodayRowsHaveFourCells(b, today);
    WellShapedAppend(a, b, today);
    var r := MorningReport(true, Success(a + b), y, m, d);
    TodayRowsHaveFourCells(a + b, today);
    assert r == Success(Header(today) + Body(TodayRows(a + b, today)));
    TodayRowsAppend(a, b, today);
    var ta, tb := TodayRows(a, today), TodayRows(b, today);
    assert TodayRows(a + b, today) == ta + tb;
    BodyAppend(ta, tb);
    assert Header(today) + Body(ta + tb) == Header(today) + Body(ta) + Body(tb);
  }

  /** No row of the day, nothing selected. */
  lemma {:induction false} NothingSelected(rows: seq<Row>, today: string)
    requires forall k :: 0 <= k < |rows| ==> |rows[k]| > 0
    requires forall k :: 0 <= k < |rows| ==> !StartsWith(rows[k][0], today)
    ensures TodayRows(rows, today) == []
  {
    if rows != [] {
      NothingSelected(rows[1..], today);
    }
  }

  /** Every selected row contributes its line to the body. */
  lemma {:induction false} BodyHasEveryLine(tasks: seq<Row>, k: int)
    requires FourCells(tasks)
    requires 0 <= k < |tasks|
    ensures Contains(Body(tasks), Line(tasks[k]))
  {
    var line := Line(tasks[k]);
    if k == 0 {
      assert OccursAt(Body(tasks), line, 0);
    } else {
      BodyHasEveryLine(tasks[1..], k - 1);
      assert tasks[1..][k - 1] == tasks[k];
      ContainsAfterPrefix(Line(tasks[0]), Body(tasks[1..]), line);
    }
  }

  /** Every appointment of the day appears in the report. */
  lemma ReportListsEveryTodayRow(rows: seq<Row>, y: int, m: int, d: int, k: int)
    requires ValidDate(y, m, d)
    requires rows != [] && WellShaped(rows, FormatDate(y, m, d))
    requires 0 <= k < |rows| && StartsWith(rows[k][0], FormatDate(y, m, d))
    ensures MorningReport(true, Success(rows), y, m, d).Success?
    ensures Contains(MorningReport(true, Success(rows), y, m, d).value, Line(rows[k]))
  {
    var today := FormatDate(y, m, d);
    var tasks := TodayRows(rows, today);
    assert rows[k] in tasks;
    var j :| 0 <= j < |tasks| && tasks[j] == rows[k];
    TodayRowsHaveFourCells(rows, today);
    BodyHasEveryLine(tasks, j);
    ContainsAfterPrefix(Header(today), Body(tasks), Line(rows[k]));
  }

  /** With no appointment on the day, the report is the header alone. */
  lemma ReportWithoutTodayRows(rows: seq<Row>, y: int, m: int, d: int)
    requires ValidDate(y, m, d)
    requires rows != [] && forall k :: 0 <= k < |rows| ==> |rows[k]| > 0
    requires forall k :: 0 <= k < |rows| ==> !StartsWith(rows[k][0], FormatDate(y, m, d))
    ensures MorningReport(true, Success(rows), y, m, d) == Success(Header(FormatDate(y, m, d)))
  {
    var today := FormatDate(y, m, d);
    NothingSelected(rows, today);
    assert Header(today) + "" == Header(today);
  }
}

=== FILE: text.dfy ===
/**
 * The parts of Python's `str` behaviour the source relies on, over `seq<char>`:
 * `isspace`/`strip`, `lower`, `in` (substring), `startswith`, `split` and
 * `replace` of one character by nothing.
 */
module Text {

  /** Python's `str.isspace()` for one character: the Unicode whitespace set. */
  predicate IsSpace(c: char) {
    var n := c as int;
    || 0x09 <= n <= 0x0D || 0x1C <= n <= 0x20 || n == 0x85 || n == 0xA0
    || n == 0x1680 || 0x2000 <= n <= 0x200A || n == 0x2028 || n == 0x2029
    || n == 0x202F || n == 0x205F || n == 0x3000
  }

  /** An ASCII decimal digit. */
  predicate IsDigit(c: char) {
    '0' <= c <= '9'
  }

  predicate AllDigits(s: string) {
    forall i :: 0 <= i < |s| ==> IsDigit(s[i])
  }

  /** Removes leading whitespace; what is removed is all whitespace. */
  function TrimStart(s: string): (r: string)
    ensures |r| <= |s| && r == s[|s| - |r|..]
    ensures r == [] || !IsSpace(r[0])
    ensures forall i :: 0 <= i < |s| - |r| ==> IsSpace(s[i])
  {
    if |s| > 0 && IsSpace(s[0]) then TrimStart(s[1..]) else s
  }

  /** Removes trailing whitespace; what is removed is all whitespace. */
  function TrimEnd(s: string): (r: string)
    ensures |r| <= |s| && r == s[..|r|]
    ensures r == [] || !IsSpace(r[|r| - 1])
    ensures forall i :: |r| <= i < |s| ==> IsSpace(s[i])
  {
    if |s| > 0 && IsSpace(s[|s| - 1]) then TrimEnd(s[..|s| - 1]) else s
  }

  /** Python's `str.strip()` with no argument. */
  function Strip(s: string): (r: string)
    ensures |r| <= |s|
    ensures r == [] || (!IsSpace(r[0]) && !IsSpace(r[|r| - 1]))
    ensures Contains(s, r)
    ensures exists i :: SurroundedBySpace(s, r, i)
  {
    StripShape(s);
    TrimEnd(TrimStart(s))
  }

  /** Trimming both ends keeps the middle of the input, with only whitespace around it. */
  lemma StripShape(s: string)
    ensures var r := TrimEnd(TrimStart(s));
            && |r| <= |s|
            && (r == [] || (!IsSpace(r[0]) && !IsSpace(r[|r| - 1])))
            && OccursAt(s, r, |s| - |TrimStart(s)|)
            && Contains(s, r)
            && SurroundedBySpace(s, r, |s| - |TrimStart(s)|)
  {
    var t := TrimStart(s);
    var r := TrimEnd(t);
    StripMiddle(s, t, r, |s| - |t|);
  }

  /** The pieces of the proof of `StripShape`, with the two trims named. */
  lemma StripMiddle(s: string, t: string, r: string, i: int)
    requires 0 <= i <= |s| && t == s[i..] && |r| <= |t| && r == t[..|r|]
    requires t == [] || !IsSpace(t[0])
    requires r == [] || !IsSpace(r[|r| - 1])
    requires forall k :: 0 <= k < i ==> IsSpace(s[k])
    requires forall k :: |r| <= k < |t| ==> IsSpace(t[k])
    ensures r == [] || (!IsSpace(r[0]) && !IsSpace(r[|r| - 1]))
    ensures OccursAt(s, r, i) && SurroundedBySpace(s, r, i)
  {
    if r != [] {
      assert r[0] == t[0];
    }
    assert s[i..i + |r|] == r;
    forall k | i + |r| <= k < |s| ensures IsSpace(s[k]) {
      assert s[k] == t[k - i];
    }
  }

  /** `r` occurs in `s` at `i`, and everything before and after it is whitespace. */
  predicate SurroundedBySpace(s: string, r: string, i: int) {
    && OccursAt(s, r, i)
    && (forall k :: 0 <= k < i ==> IsSpace(s[k]))
    && (forall k :: i + |r| <= k < |s| ==> IsSpace(s[k]))
  }

  predicate AllSpace(s: string) {
    forall k :: 0 <= k < |s| ==> IsSpace(s[k])
  }

  lemma {:induction false} TrimStartSpaces(a: string, rest: string)
    requires AllSpace(a)
    requires rest == [] || !IsSpace(rest[0])
    ensures TrimStart(a + rest) == rest
  {
    if a == [] {
      assert a + rest == rest;
    } else {
      assert (a + rest)[1..] == a[1..] + rest;
      TrimStartSpaces(a[1..], rest);
    }
  }

  lemma {:induction false} TrimEndSpaces(rest: string, b: string)
    requires AllSpace(b)
    requires rest == [] || !IsSpace(rest[|rest| - 1])
    ensures TrimEnd(rest + b) == rest
  {
    if b == [] {
      assert rest + b == rest;
    } else {
      assert (rest + b)[..|rest + b| - 1] == rest + b[..|b| - 1];
      TrimEndSpaces(rest, b[..|b| - 1]);
    }
  }

  /** Whitespace around a text with non-space ends is exactly what `strip()` removes. */
  lemma StripPadded(a: string, x: string, b: string)
    requires AllSpace(a) && AllSpace(b)
    requires x == [] || (!IsSpace(x[0]) && !IsSpace(x[|x| - 1]))
    ensures Strip(a + x + b) == x
  {
    if x == [] {
      assert a + x + b == (a + b) + [];
      TrimStartSpaces(a + b, []);
    } else {
      assert a + x + b == a + (x + b);
      TrimStartSpaces(a, x + b);
      TrimEndSpaces(x, b);
    }
  }

  /** Stripping a string that has no surrounding whitespace changes nothing. */
  lemma StripNoop(s: string)
    requires s == [] || (!IsSpace(s[0]) && !IsSpace(s[|s| - 1]))
    ensures Strip(s) == s
  {
  }

  lemma StripIdempotent(s: string)
    ensures Strip(Strip(s)) == Strip(s)
  {
    StripNoop(Strip(s));
  }

  /**
   * Python's `str.lower()` for one character, over ASCII and Latin-1:
   * 'A'..'Z' and the Latin-1 capitals U+00C0..U+00DE (except U+00D7, the
   * multiplication sign) move up by 0x20.
   */
  function LowerChar(c: char): char {
    if 'A' <= c <= 'Z' || (0xC0 <= c as int <= 0xDE && c as int != 0xD7) then
      (c as int + 0x20) as char
    else
      c
  }

  predicate IsLowerFixed(c: char) {
    LowerChar(c) == c
  }

  lemma LowerCharIdempotent(c: char)
    ensures IsLowerFixed(LowerChar(c))
  {
  }

  function Lower(s: string): (r: string)
    ensures |r| == |s|
    ensures forall i :: 0 <= i < |r| ==> !('A' <= r[i] <= 'Z')
    ensures forall i :: 0 <= i < |s| && 'A' <= s[i] <= 'Z' ==> r[i] as int == s[i] as int + 0x20
    ensures forall i :: 0 <= i < |s| && !('A' <= s[i] <= 'Z') && !(0xC0 <= s[i] as int <= 0xDE) ==> r[i] == s[i]
  {
    seq(|s|, i requires 0 <= i < |s| => LowerChar(s[i]))
  }

  lemma {:induction false} LowerIdempotent(s: string)
    ensures Lower(Lower(s)) == Lower(s)
  {
    forall i | 0 <= i < |s|
      ensures Lower(Lower(s))[i] == Lower(s)[i]
    {
      LowerCharIdempotent(s[i]);
    }
  }

  lemma LowerCharKeepsSpace(c: char)
    ensures IsSpace(LowerChar(c)) <==> IsSpace(c)
  {
  }

  lemma {:induction false} LowerTrimStart(s: string)
    ensures TrimStart(Lower(s)) == Lower(TrimStart(s))
  {
    if |s| > 0 {
      LowerCharKeepsSpace(s[0]);
      assert Lower(s)[1..] == Lower(s[1..]);
      LowerTrimStart(s[1..]);
    }
  }

  lemma {:induction false} LowerTrimEnd(s: string)
    ensures TrimEnd(Lower(s)) == Lower(TrimEnd(s))
  {
    if |s| > 0 {
      LowerCharKeepsSpace(s[|s| - 1]);
      assert Lower(s)[..|s| - 1] == Lower(s[..|s| - 1]);
      LowerTrimEnd(s[..|s| - 1]);
    }
  }

  /** Lower-casing and stripping commute: `lower` never turns a letter into whitespace. */
  lemma LowerStripCommute(s: string)
    ensures Strip(Lower(s)) == Lower(Strip(s))
  {
    LowerTrimStart(s);
    LowerTrimEnd(TrimStart(s));
  }

  predicate StartsWith(s: string, prefix: string) {
    |prefix| <= |s| && s[..|prefix|] == prefix
  }

  predicate EndsWith(s: string, suffix: string) {
    |suffix| <= |s| && s[|s| - |suffix|..] == suffix
  }

  /** `sub` occurs in `s` starting at index `i`. */
  predicate OccursAt(s: string, sub: string, i: int) {
    0 <= i <= |s| - |sub| && s[i..i + |sub|] == sub
  }

  /** Python's `sub in s` for two strings. */
  predicate Contains(s: string, sub: string) {
    exists i | 0 <= i <= |s| - |sub| :: OccursAt(s, sub, i)
  }

  /** A substring test by scanning; it decides Python's `in`. */
  function Find(s: string, sub: string, from: nat): (r: bool)
    requires from <= |s| + 1
    ensures r <==> exists i :: from <= i && OccursAt(s, sub, i)
    decreases |s| + 1 - from
  {
    if from + |sub| > |s| then false
    else if s[from..from + |sub|] == sub then assert OccursAt(s, sub, from); true
    else Find(s, sub, from + 1)
  }

  /** Text put in front keeps every substring that was there. */
  lemma ContainsAfterPrefix(a: string, b: string, sub: string)
    requires Contains(b, sub)
    ensures Contains(a + b, sub)
  {
    var i :| 0 <= i <= |b| - |sub| && OccursAt(b, sub, i);
    assert (a + b)[|a| + i..|a| + i + |sub|] == b[i..i + |sub|];
    assert OccursAt(a + b, sub, |a| + i);
  }

  lemma FindIsContains(s: string, sub: string)
    ensures Find(s, sub, 0) <==> Contains(s, sub)
  {
  }

  /** The number of occurrences of `c` in `s`. */
  function Count(s: string, c: char): nat {
    if s == [] then 0 else (if s[0] == c then 1 else 0) + Count(s[1..], c)
  }

  /** Python's `s.split(sep)` for a one-character separator. */
  function Split(s: string, sep: char): (r: seq<string>)
    ensures |r| == Count(s, sep) + 1
    ensures forall k :: 0 <= k < |r| ==> sep !in r[k]
  {
    if s == [] then [""]
    else
      var rest := Split(s[1..], sep);
      if s[0] == sep then [""] + rest
      else [[s[0]] + rest[0]] + rest[1..]
  }

  /** Python's `sep.join(pieces)` for a one-character separator. */
  function Join(pieces: seq<string>, sep: char): string {
    if pieces == [] then ""
    else if |pieces| == 1 then pieces[0]
    else pieces[0] + [sep] + Join(pieces[1..], sep)
  }

  /** `split` undoes `join` when no piece holds the separator. */
  lemma {:induction false} SplitJoin(pieces: seq<string>, sep: char)
    requires |pieces| >= 1
    requires forall k :: 0 <= k < |pieces| ==> sep !in pieces[k]
    ensures Split(Join(pieces, sep), sep) == pieces
  {
    if |pieces| == 1 {
      SplitNoSeparator(pieces[0], sep);
    } else {
      SplitJoin(pieces[1..], sep);
      SplitPrefix(pieces[0], Join(pieces[1..], sep), sep);
    }
  }

  /** `join` undoes `split`. */
  lemma {:induction false} JoinSplit(s: string, sep: char)
    ensures Join(Split(s, sep), sep) == s
  {
    if s != [] {
      JoinSplit(s[1..], sep);
      var rest := Split(s[1..], sep);
      if s[0] == sep {
        assert Join([""] + rest, sep) == [sep] + Join(rest, sep);
      } else {
        var first := [s[0]] + rest[0];
        assert Split(s, sep) == [first] + rest[1..];
        if |rest| == 1 {
          assert Join([first], sep) == first;
        } else {
          assert Join([first] + rest[1..], sep) == first + [sep] + Join(rest[1..], sep);
          assert Join(rest, sep) == rest[0] + [sep] + Join(rest[1..], sep);
        }
      }
    }
  }

  lemma {:induction false} SplitNoSeparator(s: string, sep: char)
    requires sep !in s
    ensures Split(s, sep) == [s]
  {
    if s != [] {
      SplitNoSeparator(s[1..], sep);
      assert [s[0]] + s[1..] == s;
    }
  }

  /** A separator-free prefix followed by a separator splits off as the first piece. */
  lemma {:induction false} SplitPrefix(a: string, b: string, sep: char)
    requires sep !in a
    ensures Split(a + [sep] + b, sep) == [a] + Split(b, sep)
  {
    if a == [] {
      assert [sep] + b == a + [sep] + b;
    } else {
      var x := a + [sep] + b;
      assert x[0] == a[0] != sep;
      assert x[1..] == a[1..] + [sep] + b;
      SplitPrefix(a[1..], b, sep);
      assert [a[0]] + a[1..] == a;
    }
  }

  /** Python's `s.replace(c, "")`: every occurrence of `c` dropped. */
  function RemoveChar(s: string, c: char): (r: string)
    ensures c !in r
    ensures forall x :: x in r ==> x in s
    ensures |r| == |s| - Count(s, c)
    ensures c !in s ==> r == s
  {
    if s == [] then [] else (if s[0] == c then [] else [s[0]]) + RemoveChar(s[1..], c)
  }

  lemma {:induction false} RemoveCharAppend(a: string, b: string, c: char)
    ensures RemoveChar(a + b, c) == RemoveChar(a, c) + RemoveChar(b, c)
  {
    if a == [] {
      assert a + b == b;
    } else {
      assert (a + b)[0] == a[0];
      assert (a + b)[1..] == a[1..] + b;
      RemoveCharAppend(a[1..], b, c);
    }
  }
}

=== FILE: wrappers.dfy ===
/** Failure-carrying datatypes shared by every module of the model. */
module Wrappers {

  /** A value that may be absent: Python's `None` or a missing dictionary key. */
  datatype Option<+T> = None | Some(value: T) {

    /** The carried value, or `default` when there is none. */
    function GetOr(default: T): T
    {
      match this
      case Some(v) => v
      case None => default
    }
  }

  /** Either a value or the error the source would raise or return instead. */
  datatype Result<+R, +E> = Success(value: R) | Failure(error: E)
}
